=== FILE: README.md ===
# sweb dispatch core in Dafny

This project models the request-dispatch core of `sweb`, a small Go web server skeleton. It covers
four pieces of logic:

- **The middleware onion.** `buildOnion` composes an ordered list of middlewares into a chain of
  `_OnionLayer`s. The chain ends in the hollow layer, and each layer calls the next one as `next`.
- **The built-in middlewares.** Recovery contains panics raised behind it. Stat decides what
  access line to log. Runtime decides which rate counters a request bumps.
- **Reverse routing.** `Reverse` resolves a route name and positional arguments into a path.
  `Assets` and `Files` handle the reserved static-assets name.
- **The router facade and the request context.** `hrAdapt` binds a match's path parameters into
  a child of the server's base context. `Params` reads them back. `Handle` and `Get` register
  routes.

Everything is a pure function over immutable datatypes. A middleware is one of a fixed set of
scripted behaviours (`Middleware.Ware`):

- pass through;
- short-circuit;
- act as the terminal handler;
- bind a context value;
- panic;
- Recovery, Stat or Runtime.

The scripted behaviours other than Recovery, Stat and Runtime (`Hollow`, `Pass`, `Stop`,
`Terminal`, `Bind`, `Panics`) stand for `MiddleFn` functions. `MiddleFn.ServeHTTP`
(server/middleware.go:22-28) is the identity adapter that calls `m(ctx, w, r, next)`, so the
model runs such a function directly as its layer's middleware.

Serving a chain (`Middleware.Serve`) produces two things. The first is a trace of observable
events: enter and leave marks, the context a handler received, header and panic-page writes,
error and access log lines, and counter bumps. The second is an outcome: a returned context
(possibly Go's nil context) or a panic that is still propagating.

The context store (`Context`) is an immutable chain of bindings. A lookup returns the nearest
binding. `httprouter.Params` is a sequence of key/value pairs, and `ByName` returns the first
match.

The Go source is mid-refactor. The model follows the evident intent in two places:

- `Handler` is declared without a result (server/server.go:13), but middlewares use `next(...)`
  as a context (server/middleware.go:52, :79). Handlers here return a context.
- `Server` (server/server.go:20-25) lacks the `namedRoutes` and `extraAssetsMapping` fields that
  server/routes.go:17, :21, :47 and :55 use. `Server.Server` has them, and `Server.New` starts
  them empty.

A template without placeholders that is reversed with arguments is still reassembled and
cleaned (server/routes.go:26-43), unless one of its segments is empty: then it faults at
server/routes.go:36, like any other template. The template comes back verbatim only when no arguments are
given or the template is `/` (server/routes.go:26-27). `Routes.Reverse` does the same.

In two places the code's behaviour is narrower than its package comment suggests. The model
follows the code:

- The package comment promises named routes (pkg.go:9). The usage sample passes a route name to
  `Get` (pkg.go:21). But `Handle`/`Get` in server/server.go:39-45 take no name, and only `Files`
  writes the name table (server/routes.go:55). The model's `Handle`/`Get` leave the name table
  unchanged, and the lemmas take the table as given.
- `hrAdapt` does not run the middleware chain yet (server/server.go:53 is a TODO). The model's
  `HrAdapt` is only the context the handler receives. No wiring from router to onion is
  modelled.

## Model

| member | source | states |
|---|---|---|
| `Router.ByName` | server/server.go:61-62 | With no entry for the key, the result is "". Otherwise it is the value of the first entry carrying the key. This is the assumed behaviour of `httprouter.Params.ByName`. |
| `Router.FirstWithKeyExists` | server/server.go:61-62 | If some parameter carries the key, a first such parameter exists, so `ByName` is fully determined. |
| `Context.Lookup` | server/server.go:59 | `ctx.Value(key)` finds nothing exactly when no binding in the chain has the key. |
| `Context.LookupIsNearestBinding` | server/server.go:59 | `ctx.Value(key)` agrees with reading the context as a newest-first association list: it finds the value of the first binding of the key. Together with `Context.Lookup`, which states absence, the two readings agree in both directions. |
| `Context.WithValueShadows` | server/server.go:74-76 | A derived child binds the key to the new value and shadows older bindings. Every other key resolves as in the parent. The child is a descendant of the parent. |
| `Context.ExtendsTransitive` | server/server.go:75 | A descendant of a descendant of a context is a descendant of that context. |
| `Context.ExtendBindings` | server/server.go:75 | Deriving several children in a row produces a descendant. Its newest bindings are the added ones in reverse order, in front of the parent's. |
| `Context.LookupExtend` | server/server.go:75 | After several derivations, a key resolves to its last added binding. If no added binding has the key, it resolves as it did before. |
| `Middleware.NewRecoveryWare` | server/middleware.go:56-69 | `printStack` is the first flag and `stackAll` the second. Absent flags are false, further flags are ignored, and the stack size is always 8192. |
| `Middleware.ObservedStatus` | server/middleware.go:80-82 | The status the observer reports is latched by the first response write. An explicit header gives its code, and a body written first gives 200. It is 200 if nothing was written. |
| `Middleware.HasIgnoredPrefix` | server/middleware.go:86-92 | The early-exit prefix scan is true exactly when the path starts with some listed prefix. |
| `Middleware.StatLevel` | server/middleware.go:82-97 | The level is Warn exactly when status ≥ 400, whatever the path. It is Info exactly when status < 400 and no prefix matches. Nothing is logged exactly when status < 400 and a prefix matches. |
| `Middleware.StatAfter` | server/middleware.go:77-99 | A panic from `next` passes through untouched. Otherwise next's outcome (its context) is returned unchanged. Next's events come first, followed by at most one access line, at the level `StatLevel` picks for the observed status. |
| `Middleware.RuntimeCounters` | server/middleware.go:128-143 | The 5xx counter is bumped exactly when status ≥ 500, and the 4xx counter exactly when 400 ≤ status < 500. The QPS counter is bumped exactly when no ignored prefix matches, independently of status. At most two distinct counters are bumped. |
| `Middleware.RuntimeAfter` | server/middleware.go:122-153 | A panic passes through untouched. Otherwise next's outcome is returned unchanged and exactly the counters `RuntimeCounters` picks are bumped, after next's events. |
| `Middleware.LatencySlot` | server/middleware.go:147 | The ring slot `(rate-1) % 20` uses Go's truncating remainder. It is in [0, 20) whenever rate ≥ 1, lies in (-20, 0] when rate < 1, and is congruent to rate-1 modulo 20. |
| `Middleware.Recover` | server/middleware.go:40-52 | On a normal return, the downstream run is returned as is and Recovery writes nothing. On a panic, the result is a normal return of the nil context. The run adds status 500 first, then the error log (always), then the panic page exactly when `printStack` is set, and nothing else. |
| `Middleware.Serve` | server/middleware.go:175-177 | Running a layer passes its middleware the next layer's `ServeHTTP`. Contexts only grow inwards: every context a handler records, and every context returned, is the incoming context with bindings added. |
| `Onion.HollowOnion` | server/middleware.go:191-196 | Whatever context and request it is given, the hollow layer returns that context and records no event. |
| `Onion.BuildOnion` | server/middleware.go:179-189 | The built chain's middlewares are the list, in declaration order, followed by the hollow layer's function. |
| `Onion.HandlersDetermineOnion` | server/middleware.go:170-173 | A chain is determined by its list of middlewares, so `BuildOnion`'s contract fixes the chain exactly. |
| `Onion.BuildOnionCons` | server/middleware.go:183-188 | For a non-empty list, the built layer holds the first middleware, and its `next` is the onion built from the rest. For a one-element list, that `next` is the hollow layer. |
| `Onion.HollowServes` | server/middleware.go:179-196 | An empty list builds the hollow layer, whose `next` is a zero layer. Whatever its `next` holds, the hollow function returns the incoming context and writes nothing, so it never calls `next`. |
| `Onion.LayerCongruence` | server/middleware.go:175-176 | A layer's run depends on its `next` only through the run of `next` on the context the layer passes. |
| `Onion.ShortCircuit` | server/middleware.go:175-176 | Once a layer that does not call `next` is reached, the layers after it make no difference. The chain runs exactly as if the list ended at that layer. |
| `Onion.PassesThenLayers` | server/middleware.go:179-189 | Pass-through layers in front of a list wrap the run of the rest. Their pre-`next` events come first, in list order. Unless a panic propagates, their post-`next` events come last, in reverse list order. |
| `Onion.InOutOrder` | server/middleware.go:175-189 | In a list of pass-through and binding layers, each calling `next` once, pre-`next` events are in list order and post-`next` events in reverse list order. The context returned is the incoming one extended with the list's bindings, outermost first. |
| `Onion.ShortCircuitOutcome` | server/middleware.go:175-176 | Behind pass-through layers, a layer k that does not call `next` alone decides the result. The chain's run is layer k's own run wrapped by the outer layers, whatever is listed after k. |
| `Onion.BindsThenLayers` | server/middleware.go:175-176 | Layers that call `next` with a derived context hand the rest of the chain the incoming context extended with their bindings, outermost first. |
| `Onion.HandlerSeesBindings` | server/middleware.go:175-176 | A handler behind binding layers receives and returns the extended context. A key resolves there to its last binding, or as in the incoming context if no layer bound it. |
| `Onion.RecoveryContainsLaterPanic` | server/middleware.go:40-52 | With pass-through layers outside a Recovery layer and between it and a panicking layer, the panic is contained. The chain's run is exactly the outer enter and leave marks around the inner enter marks, status 500, the error log and, with `printStack`, the panic page, and the nil context is returned. |
| `Onion.RecoveryContainsPanic` | server/middleware.go:40-52 | Behind any layers between a Recovery layer and a panicking layer that call `next` and are not Recovery (Pass, Bind, Stat, Runtime), the guarded run is the inner run followed by status 500, the error log and, with `printStack`, the panic page, and the nil context is returned. A nested Recovery is excluded because the innermost one contains the panic with its own configuration. |
| `Onion.PanicBeforeRecoveryEscapes` | server/middleware.go:40-52 | Behind pass-through layers, a panic escapes the chain, and no later layer runs, whatever follows (Recovery included). The run is exactly those layers' enter marks and the panic. |
| `Onion.PanicEscapesCallingLayers` | server/middleware.go:40-52 | Recovery guards only the layers listed after it. Behind any layers that call `next` and are not Recovery (Pass, Bind, Stat, Runtime), a panic escapes the whole chain. |
| `Onion.RecoveryNeverPanics` | server/middleware.go:40-52 | Behind any layers that call `next` (Pass, Bind, Recovery, Stat, Runtime), a Recovery layer makes the chain return normally, whatever follows it. |
| `Onion.StatLogsContainedPanic` | server/middleware.go:42 | Stat outside Recovery observes the 500 that Recovery wrote for a contained panic. It logs at Warn, whatever its ignored prefixes. |
| `Onion.PanicSkipsInnerStat` | server/middleware.go:79 | Stat inside Recovery never gets past `next` when a panic is raised behind it, so it logs no access line. |
| `Server.New` | server/server.go:66-72 | A new server holds the given base context and debug flag, with no routes, no named routes and no asset overrides. |
| `Server.Handle` | server/server.go:39-41 | The router gains exactly one registration (method, path, handler), appended at the end. Nothing else about the server changes. |
| `Server.Get` | server/server.go:43-45 | The router gains exactly one registration, with method GET and the given path and handler. Nothing else changes, which is what `Handle("GET", …)` does. |
| `Server.NewContextWithParams` | server/server.go:74-76 | In the child, the reserved params key resolves to exactly the given parameters. Every other key resolves as in the parent. |
| `Server.HrAdapt` | server/server.go:47-56 | With no path parameters, the handler receives the server's base context itself. With parameters, it receives a descendant where the params key maps to exactly them and every other key resolves as in the base. |
| `Server.ParamsFound` | server/server.go:58-64 | `Params` never faults. It is "" when the params key is unbound, when its nearest binding is not a parameter list, or when that list has no entry with the key. When the list has such an entry, the answer is the value of the first one. A non-empty answer always comes from such an entry. |
| `Server.Params` | server/server.go:58-64 | A non-empty answer is the value of the first parameter carrying the key, in the parameter list bound nearest to the reserved key. |
| `Server.ParamsAfterHrAdapt` | server/server.go:47-64 | A handler reached through `hrAdapt` with parameters reads each one back as `ByName` on its own match. Without parameters, it reads what the base context holds. |
| `Routes.Reverse` | server/routes.go:20-44 | An unknown name yields the fallback `/no_such_named_routes_defined`, with a warning, and no fault. With no arguments, or for the template `/`, the stored template comes back verbatim. Otherwise the call faults exactly when a segment after the leading `/` is empty, at the first such segment. If it does not fault, it returns `CleanPath` of the assembled path. |
| `Routes.Substitute` | server/routes.go:35-42 | Substitution keeps the segment count. Every segment that is not a placeholder stays as written, and every output segment is either the template's segment or one of the arguments. |
| `Routes.SubstituteIsPositional` | server/routes.go:33-42 | The placeholder with k placeholders before it receives argument k when there is one. Every other segment, and every placeholder beyond the last argument, stays as written. |
| `Routes.FilledPlaceholders` | server/routes.go:37-40 | Each of the first min(#placeholders, #arguments) arguments fills the placeholder of its rank. Together with the positional lemma, exactly that many segments are substituted, and surplus arguments are ignored. |
| `Routes.AssembleSegments` | server/routes.go:33-43 | Before cleaning, the path is `/` followed by the substituted segments joined by `/`. It splits back into the root and exactly those segments, so it has the template's segment count. |
| `Routes.ReverseCanonical` | server/routes.go:20-44 | Assume a canonical template, canonical arguments without `/`, and a `CleanPath` that keeps canonical paths. Then reversing returns exactly the assembled path, with no cleaning left to do. Its segments are then the positional substitution of the template's, by `Routes.AssembleSegments`. |
| `Routes.ReverseOneParameter` | server/routes.go:26-43 | Reversing a template of one literal segment and one placeholder with a single argument gives the cleaned `/segment/argument`. |
| `Routes.ReverseUserExample` | server/routes.go:20-44 | Reversing `/users/:id` with 42 gives `/users/42`, when `CleanPath` keeps canonical paths. |
| `Routes.EnableExtraAssetsMapping` | server/routes.go:16-18 | The asset override table is replaced, and nothing else changes. |
| `Routes.Files` | server/routes.go:53-56 | The mount path is recorded under the reserved assets name. Every other name keeps its template, and nothing else changes. |
| `Routes.Assets` | server/routes.go:46-51 | For a path with an override, the result is the reverse of the assets name with the override as the only argument. For any other path, the path itself is the only argument. |
| `Routes.AssetsAfterFiles` | server/routes.go:46-56 | After `Files` mounts a directory segment plus a wildcard, `Assets(p)` resolves to the cleaned mount directory followed by p, or by p's override when there is one. |
| `Routes.NewServerReversesNothing` | server/server.go:66-72 | A new server resolves no name. Every reverse gives the fallback path. |
| `Routes.HandleKeepsReverse` | server/server.go:39-45 | Registering a route with `Handle` or `Get` does not name it. Reverse routing gives the same answer before and after. |
| `Routes.AssetsUseOverrides` | server/routes.go:16-18 | After the override table is replaced, an overridden path reverses with its override from the new table. Any other path reverses with itself, and earlier overrides play no part. |
| `Strings.JoinSplit` | server/routes.go:33-43 | Joining the pieces of `strings.Split` gives back the original string. |
| `Strings.SplitJoin` | server/routes.go:33-43 | Splitting a join of one or more separator-free pieces gives back the pieces. |
| `Strings.SprintIntRoundTrip` | server/routes.go:29-32 | The decimal text `fmt.Sprint` gives an integer reads back as that integer and contains no `/`. |

## Left out

- `httprouter.CleanPath` is outside this model. `Routes.Reverse` takes it as a parameter `cleanPath`. The lemmas that need its behaviour assume only `Routes.CleanKeepsCanonical`: a rooted path whose segments are non-empty and not `.` or `..` is returned unchanged.
- The router's trie matching, `ServeFiles`, and its dispatch of a request to a registration are outside this model. `Routes.Files` records only the mount name. A registration is a method, a path and a handler name.
- `ResponseWriter`, the type with `Status()`/`Size()`, is not defined in server/middleware.go, server/server.go or server/routes.go. `Middleware.ObservedStatus` gives its status the way `net/http` latches one: the first `WriteHeader` fixes it, and a body written first fixes 200. Byte counts are not modelled. Nor is the type assertion `w.(ResponseWriter)`, which assumes the writer is such a type.
- Stat and Runtime read the status from the events of the layers inside them. No modelled middleware writes to the response before calling `next`, so this equals the whole response's status.
- `Server.Run` and the graceful listener are process and network plumbing.
- `render/render.go`: templates, JSON, buffer pooling and response output are library and I/O concerns.
- Runtime's rate windows, `expvar` publication, `time.Now`/`time.Since`, `runtime.NumGoroutine`, the latency strings and `NewRuntimeWare`'s published start time are time-based, shared state from foreign packages. Only the counter choice and the ring index are modelled.
- `NewStatWare(prefixes...)` is the constructor `Stat(prefixes)`, and `NewRuntimeWare(prefixes)` is `Runtime(prefixes)` without its `expvar` registration.
- Log message text, `fmt` formatting, `runtime.Stack` contents and the 8 KiB truncation are abstract events. The events record the panic value and the `stackAll` flag.
- A middleware that called `next` twice would run the inner layers twice. No modelled middleware does so.
- `Onion.InOutOrder` covers lists of pass-through and binding layers only. For Stat and Runtime layers, the order of their post-`next` events is stated one layer at a time: `Middleware.StatAfter` and `Middleware.RuntimeAfter` append after next's events, and `Onion.LayerCongruence` composes layers. No single lemma states the reverse order for a mixed list containing them, because their events depend on the status the inner layers wrote.
- Go's `panic(nil)`, which `recover()` reports as nil in older Go versions, is not modelled. Panic values are strings.
- Arbitrary application handlers are represented by `Terminal`, which records the context it received and writes a status.
- `Routes.Reverse` stringifies arguments only for strings and integers, the kinds reverse routing is given in practice. Other `fmt.Sprint` formats are not modelled.
- `Routes.AssembleSegments` requires arguments free of `/` and a template containing at least one `/`. Otherwise the assembled path can have a different segment count than the template.
- Go strings are byte sequences, while the model uses `seq<char>`. On valid UTF-8 this loses nothing: `/`, `:` and `*` are ASCII, and `strings.HasPrefix` and `strings.Split` on bytes agree with prefix and split on characters. Invalid UTF-8 is not modelled.
- Concurrency of simultaneous requests over a shared onion is not modelled. Every value in the model is immutable.
- `srv.Middleware(...)` and a three-argument `Get(path, name, handler)`, both used at pkg.go:17-21, are not defined in server/server.go.
- Go's nil `context.Context` as an input is not modelled, because `Ctx` has no nil value. This leaves out `New` over a nil context (server/server.go:66) and `Params` on one: server/server.go:59 calls `ctx.Value`, which faults on nil. Only the nil context that Recovery returns (server/middleware.go:52) is modelled, as `Returned(None)`.
- Aliasing is not modelled. `EnableExtraAssetsMapping` stores the caller's map itself (server/routes.go:17). `NewStatWare` and `NewRuntimeWare` keep the caller's prefix slice (server/middleware.go:103, :158). The caller's later writes therefore change what `Assets`, Stat and Runtime see. The model stores a value snapshot.

=== FILE: context.dfy ===
/**
 * The per-request context store: an immutable chain of key/value bindings. Deriving a child
 * wraps the parent and adds one binding; a lookup walks from the newest binding towards the
 * root and returns the first match.
 */
module Context {
  import opened Wrappers
  import opened Router

  /** The kinds of value the core stores or inspects under a context key. */
  datatype Value = IntValue(i: int) | StringValue(s: string) | ParamsValue(params: seq<Param>)

  /** A context: the root (`context.Background()`), or a parent plus one binding. */
  datatype Ctx = Background | WithValue(parent: Ctx, key: string, val: Value)

  /** `ctx.Value(key)`: the nearest binding of `key`, or `None`. */
  function Lookup(ctx: Ctx, key: string): (r: Option<Value>)
    ensures r.None? <==> forall i :: 0 <= i < |Bindings(ctx)| ==> Bindings(ctx)[i].0 != key
  {
    match ctx
    case Background => None
    case WithValue(parent, k, v) =>
      ConsBindings(ctx);
      if k == key then Some(v) else Lookup(parent, key)
  }

  /** The bindings of `ctx` as an association list, newest first. */
  function Bindings(ctx: Ctx): seq<(string, Value)>
  {
    match ctx
    case Background => []
    case WithValue(parent, k, v) => [(k, v)] + Bindings(parent)
  }

  /** `base` is `ctx` itself or one of its ancestors: `ctx` only adds bindings to `base`. */
  predicate Extends(ctx: Ctx, base: Ctx)
  {
    ctx == base || (ctx.WithValue? && Extends(ctx.parent, base))
  }

  /** Derives from `ctx` one child per binding, in order: the last binding is the newest. */
  function Extend(ctx: Ctx, binds: seq<(string, Value)>): Ctx
    decreases |binds|
  {
    if |binds| == 0 then ctx else Extend(WithValue(ctx, binds[0].0, binds[0].1), binds[1..])
  }

  /** Entry `i` of an association list is the first one for `key`. */
  predicate FirstBinding(bs: seq<(string, Value)>, key: string, i: int)
  {
    0 <= i < |bs| && bs[i].0 == key && forall j :: 0 <= j < i ==> bs[j].0 != key
  }

  /**
   * Lookup agrees with the association-list reading of a context: it finds `v` when the first
   * binding of `key`, scanning newest first, carries `v` (that it finds nothing exactly when no
   * binding has the key is `Lookup`'s own contract).
   */
  lemma {:induction false} LookupIsNearestBinding(ctx: Ctx, key: string)
    ensures forall i :: FirstBinding(Bindings(ctx), key, i) ==> Lookup(ctx, key) == Some(Bindings(ctx)[i].1)
  {
    match ctx
    case Background =>
    case WithValue(parent, k, v) =>
      LookupIsNearestBinding(parent, key);
      ConsBindings(ctx);
  }

  /** The bindings of a derived context: its own binding, then the parent's. */
  lemma ConsBindings(ctx: Ctx)
    requires ctx.WithValue?
    ensures |Bindings(ctx)| == 1 + |Bindings(ctx.parent)|
    ensures Bindings(ctx)[0] == (ctx.key, ctx.val)
    ensures forall i :: 0 <= i < |Bindings(ctx.parent)| ==> Bindings(ctx)[i + 1] == Bindings(ctx.parent)[i]
  {
  }

  /**
   * Deriving a child binds `key` to `val` for the child, shadowing any older binding, and leaves
   * every other key resolving as it does in the parent; the parent itself is a distinct, unchanged
   * value.
   */
  lemma WithValueShadows(parent: Ctx, key: string, val: Value, other: string)
    ensures Lookup(WithValue(parent, key, val), key) == Some(val)
    ensures other != key ==> Lookup(WithValue(parent, key, val), other) == Lookup(parent, other)
    ensures Extends(WithValue(parent, key, val), parent)
  {
  }

  /** `Extends` is transitive: a descendant of a descendant is a descendant. */
  lemma {:induction false} ExtendsTransitive(a: Ctx, b: Ctx, c: Ctx)
    requires Extends(a, b) && Extends(b, c)
    ensures Extends(a, c)
    decreases a
  {
    if a != b {
      ExtendsTransitive(a.parent, b, c);
    }
  }

  /** Extending with a list of bindings yields a descendant whose newest bindings are the list reversed. */
  lemma {:induction false} ExtendBindings(ctx: Ctx, binds: seq<(string, Value)>)
    ensures Extends(Extend(ctx, binds), ctx)
    ensures Bindings(Extend(ctx, binds)) == Reversed(binds) + Bindings(ctx)
    decreases |binds|
  {
    if |binds| > 0 {
      var child := WithValue(ctx, binds[0].0, binds[0].1);
      ExtendBindings(child, binds[1..]);
      ExtendsTransitive(Extend(child, binds[1..]), child, ctx);
      assert Reversed(binds) == Reversed(binds[1..]) + [binds[0]];
    }
  }

  /** A sequence in reverse order. */
  function Reversed<T>(s: seq<T>): (r: seq<T>)
    ensures |r| == |s|
    ensures forall i :: 0 <= i < |s| ==> r[i] == s[|s| - 1 - i]
  {
    if |s| == 0 then [] else Reversed(s[1..]) + [s[0]]
  }

  /** The value of the last binding of `key` in `binds`, if any. */
  function LastBinding(binds: seq<(string, Value)>, key: string): Option<Value>
    decreases |binds|
  {
    if |binds| == 0 then None
    else match LastBinding(binds[1..], key)
      case Some(v) => Some(v)
      case None => if binds[0].0 == key then Some(binds[0].1) else None
  }

  /**
   * After extending with a list of bindings, a key resolves to its last binding in the list, or,
   * when the list does not bind it, as it did before.
   */
  lemma {:induction false} LookupExtend(ctx: Ctx, binds: seq<(string, Value)>, key: string)
    ensures Lookup(Extend(ctx, binds), key)
      == match LastBinding(binds, key) case Some(v) => Some(v) case None => Lookup(ctx, key)
    decreases |binds|
  {
    if |binds| > 0 {
      LookupExtend(WithValue(ctx, binds[0].0, binds[0].1), binds[1..], key);
    }
  }
}

=== FILE: middleware.dfy ===
/**
 * The middleware layers of the server and the interpreter that runs a chain of them.
 *
 * A middleware is modelled as one of a fixed set of scripted behaviours (`Ware`); running a
 * chain of layers yields the trace of observable events (log lines, response writes, counter
 * bumps, the context a handler saw) and an outcome: a returned context, or a panic that is
 * still propagating.
 */
module Middleware {
  import opened Wrappers
  import opened Context

  /** Capacity of the stack-trace buffer a Recovery layer captures into (8 KiB). */
  const StackSize: int := 1024 * 8

  /** `http.StatusInternalServerError`. */
  const StatusInternalServerError: int := 500

  /** The status an HTTP response carries when none was set before the first body write. */
  const StatusOK: int := 200

  /** The message of the runtime fault raised by calling through a nil middleware. */
  const NilDereference: string := "runtime error: invalid memory address or nil pointer dereference"

  /** Number of slots in the Runtime layer's ring of recent latencies. */
  const LatencySlots: int := 20

  /** The parts of the incoming request the built-in layers read. */
  datatype Request = Request(verb: string, path: string)

  /** Configuration of the Recovery layer. */
  datatype RecoveryWare = RecoveryWare(printStack: bool, stackAll: bool, stackSize: int)

  datatype Level = Info | Warn

  /** The Runtime layer's rate counters. */
  datatype Counter = Qps | Hits4xx | Hits5xx

  /** A middleware, as a scripted behaviour towards the layer inside it (`next`). */
  datatype Ware =
      /** The function of the hollow layer that ends every chain: returns its context, ignoring `next`. */
    | Hollow
      /** Works before `next`, calls `next` once with the same context, works after it returns. */
    | Pass(tag: string)
      /** Short-circuits: writes `status` and returns its context without calling `next`. */
    | Stop(tag: string, status: int)
      /** An application handler adapted to a middleware: records the context it received,
          writes `status`, returns that context, and ignores `next`. */
    | Terminal(tag: string, status: int)
      /** Calls `next` with a child context binding `key` to `val`. */
    | Bind(key: string, val: Value)
      /** Raises a panic carrying `msg`. */
    | Panics(msg: string)
    | Recovery(config: RecoveryWare)
    | Stat(ignoredPrefixes: seq<string>)
    | Runtime(ignoredUrls: seq<string>)

  /**
   * An onion layer: a middleware paired with the layer it calls as `next`. `Zero` is Go's zero
   * layer, whose middleware is nil: serving it faults.
   */
  datatype Onion = Zero | Layer(handler: Ware, next: Onion)

  /** The observable effects of serving a request. */
  datatype Event =
    | Enter(tag: string)
    | Leave(tag: string)
    | Stopped(tag: string)
    | Handled(tag: string, ctx: Ctx)
    | WriteHeader(code: int)
    | PanicPage(msg: string, allStacks: bool)
    | ErrorLog(msg: string, allStacks: bool)
    | AccessLog(level: Level, verb: string, path: string, status: int)
    | Bump(counter: Counter)

  /** How a layer's call ends: it returns a context (Go's nil context is `None`), or it panics. */
  datatype Outcome = Returned(ctx: Option<Ctx>) | Panicked(msg: string)

  datatype Run = Run(trace: seq<Event>, out: Outcome)

  /** True for the behaviours that never call `next`. */
  predicate CallsNext(w: Ware)
  {
    !(w.Hollow? || w.Stop? || w.Terminal? || w.Panics?)
  }

  /**
   * `NewRecoveryWare(flags...)`: the first flag chooses whether the panic page shows the stack,
   * the second whether the stack covers every goroutine; absent flags are false, further flags
   * are ignored, and the stack buffer is always 8 KiB.
   */
  method NewRecoveryWare(flags: seq<bool>) returns (m: RecoveryWare)
    ensures m.printStack <==> |flags| > 0 && flags[0]
    ensures m.stackAll <==> |flags| > 1 && flags[1]
    ensures m.stackSize == StackSize
  {
    var stackFlags := [false, false];
    var i := 0;
    while i < |flags|
      invariant 0 <= i <= |flags|
      invariant |stackFlags| == 2
      invariant stackFlags[0] <==> i > 0 && flags[0]
      invariant stackFlags[1] <==> i > 1 && flags[1]
    {
      if i >= |stackFlags| {
        break;
      }
      stackFlags := stackFlags[i := flags[i]];
      i := i + 1;
    }
    m := RecoveryWare(stackFlags[0], stackFlags[1], 1024 * 8);
  }

  /** True for the events that write to the response. */
  predicate WritesResponse(e: Event)
  {
    e.WriteHeader? || e.PanicPage?
  }

  /**
   * The status the response observer reports after `trace`: the first explicit header latches
   * it, a body written before any header latches 200, and it is 200 when nothing was written.
   */
  function ObservedStatus(trace: seq<Event>): (status: int)
    ensures (forall i :: 0 <= i < |trace| ==> !WritesResponse(trace[i])) ==> status == StatusOK
    ensures forall i :: 0 <= i < |trace| && (forall j :: 0 <= j < i ==> !WritesResponse(trace[j])) ==>
      (trace[i].WriteHeader? ==> status == trace[i].code) && (trace[i].PanicPage? ==> status == StatusOK)
  {
    if |trace| == 0 then StatusOK
    else if trace[0].WriteHeader? then trace[0].code
    else if trace[0].PanicPage? then StatusOK
    else
      assert forall i :: 0 < i < |trace| ==> trace[1..][i - 1] == trace[i];
      ObservedStatus(trace[1..])
  }

  /** True when `path` starts with one of `prefixes`. */
  predicate AnyPrefixOf(path: string, prefixes: seq<string>)
  {
    exists i :: 0 <= i < |prefixes| && prefixes[i] <= path
  }

  /** The prefix scan of the Stat and Runtime layers: stops at the first prefix `path` starts with. */
  function HasIgnoredPrefix(path: string, prefixes: seq<string>): (ignored: bool)
    ensures ignored <==> AnyPrefixOf(path, prefixes)
  {
    if |prefixes| == 0 then false
    else if prefixes[0] <= path then true
    else
      assert forall i :: 0 < i < |prefixes| ==> prefixes[1..][i - 1] == prefixes[i];
      HasIgnoredPrefix(path, prefixes[1..])
  }

  /**
   * The Stat layer's logging decision: a warning for every 4xx/5xx status whatever the path,
   * otherwise nothing for an ignored path and an informational line for the rest.
   */
  function StatLevel(status: int, path: string, ignoredPrefixes: seq<string>): (level: Option<Level>)
    ensures level == Some(Warn) <==> status >= 400
    ensures level == Some(Info) <==> status < 400 && !AnyPrefixOf(path, ignoredPrefixes)
    ensures level == None <==> status < 400 && AnyPrefixOf(path, ignoredPrefixes)
  {
    if status >= 400 then Some(Warn)
    else if HasIgnoredPrefix(path, ignoredPrefixes) then None
    else Some(Info)
  }

  /**
   * The counters the Runtime layer bumps for one request, in order: the 5xx counter for a
   * status of 500 or more, otherwise the 4xx counter for 400 to 499, then the QPS counter
   * unless the path is ignored.
   */
  function RuntimeCounters(status: int, path: string, ignoredUrls: seq<string>): (bumped: seq<Counter>)
    ensures Hits5xx in bumped <==> status >= 500
    ensures Hits4xx in bumped <==> 400 <= status < 500
    ensures Qps in bumped <==> !AnyPrefixOf(path, ignoredUrls)
    ensures |bumped| <= 2 && (|bumped| == 2 ==> bumped[0] != bumped[1])
  {
    (if status >= 500 then [Hits5xx] else if status >= 400 then [Hits4xx] else [])
      + (if HasIgnoredPrefix(path, ignoredUrls) then [] else [Qps])
  }

  /** Go's `%`, which truncates towards zero. */
  function GoRem(a: int, b: int): int
    requires b > 0
  {
    if a >= 0 then a % b else -((-a) % b)
  }

  /**
   * The latency ring slot `(rate - 1) % 20` the Runtime layer writes: a valid slot whenever the
   * rate is at least one, and congruent to `rate - 1`.
   */
  function LatencySlot(rate: int): (slot: int)
    ensures rate >= 1 ==> 0 <= slot < LatencySlots
    ensures rate < 1 ==> -LatencySlots < slot <= 0
    ensures (rate - 1 - slot) % LatencySlots == 0
  {
    GoRem(rate - 1, LatencySlots)
  }

  /**
   * Recovery's deferred guard applied to the run of the layers inside it. A normal return passes
   * through untouched. A panic is contained: status 500 is written, the panic is always logged,
   * the panic page is written only with `printStack`, and the layer returns the nil context.
   */
  function Recover(config: RecoveryWare, inner: Run): (r: Run)
    ensures r.out.Returned?
    ensures inner.out.Returned? ==> r == inner
    ensures inner.trace <= r.trace
    ensures inner.out.Panicked? ==>
      var added := r.trace[|inner.trace|..];
      && r.out == Returned(None)
      && |added| >= 2
      && added[0] == WriteHeader(StatusInternalServerError)
      && added[1] == ErrorLog(inner.out.msg, config.stackAll)
      && |added| == (if config.printStack then 3 else 2)
      && (config.printStack ==> added[2] == PanicPage(inner.out.msg, config.stackAll))
      && (PanicPage(inner.out.msg, config.stackAll) in added <==> config.printStack)
      && forall e :: e in added ==> e.WriteHeader? || e.ErrorLog? || e.PanicPage?
  {
    match inner.out
    case Returned(_) => inner
    case Panicked(msg) =>
      var page := if config.printStack then [PanicPage(msg, config.stackAll)] else [];
      var added := [WriteHeader(StatusInternalServerError), ErrorLog(msg, config.stackAll)] + page;
      assert (inner.trace + added)[|inner.trace|..] == added;
      Run(inner.trace + added, Returned(None))
  }

  /**
   * Stat's work after `next`: a panic passes through untouched; otherwise next's outcome is
   * returned unchanged and at most one access-log line is added, at the level `StatLevel`
   * chooses for the observed status.
   */
  function StatAfter(ignoredPrefixes: seq<string>, req: Request, inner: Run): (r: Run)
    ensures inner.out.Panicked? ==> r == inner
    ensures r.out == inner.out && inner.trace <= r.trace
    ensures inner.out.Returned? ==>
      var status := ObservedStatus(inner.trace);
      match StatLevel(status, req.path, ignoredPrefixes)
      case None => r.trace == inner.trace
      case Some(level) => r.trace == inner.trace + [AccessLog(level, req.verb, req.path, status)]
  {
    if inner.out.Panicked? then inner
    else
      var status := ObservedStatus(inner.trace);
      match StatLevel(status, req.path, ignoredPrefixes)
      case None => inner
      case Some(level) => Run(inner.trace + [AccessLog(level, req.verb, req.path, status)], inner.out)
  }

  /** A counter bump per counter. */
  function Bumps(counters: seq<Counter>): (es: seq<Event>)
    ensures |es| == |counters|
    ensures forall i :: 0 <= i < |counters| ==> es[i] == Bump(counters[i])
  {
    if |counters| == 0 then [] else [Bump(counters[0])] + Bumps(counters[1..])
  }

  /**
   * Runtime's work after `next`: a panic passes through untouched; otherwise next's outcome is
   * returned unchanged and exactly the counters `RuntimeCounters` picks for the observed status
   * are bumped.
   */
  function RuntimeAfter(ignoredUrls: seq<string>, req: Request, inner: Run): (r: Run)
    ensures inner.out.Panicked? ==> r == inner
    ensures r.out == inner.out && inner.trace <= r.trace
    ensures inner.out.Returned? ==>
      r.trace == inner.trace + Bumps(RuntimeCounters(ObservedStatus(inner.trace), req.path, ignoredUrls))
  {
    if inner.out.Panicked? then inner
    else Run(inner.trace + Bumps(RuntimeCounters(ObservedStatus(inner.trace), req.path, ignoredUrls)), inner.out)
  }

  /** Every context a run's handlers saw, and the context it returned, descends from `ctx`. */
  predicate Descends(r: Run, ctx: Ctx)
  {
    && (forall i :: 0 <= i < |r.trace| && r.trace[i].Handled? ==> Extends(r.trace[i].ctx, ctx))
    && (r.out.Returned? && r.out.ctx.Some? ==> Extends(r.out.ctx.value, ctx))
  }

  /** A run descending from a child context descends from the child's ancestors too. */
  lemma ExtendsThrough(inner: Run, child: Ctx, ctx: Ctx)
    requires Extends(child, ctx) && Descends(inner, child)
    ensures Descends(inner, ctx)
  {
    forall i | 0 <= i < |inner.trace| && inner.trace[i].Handled?
      ensures Extends(inner.trace[i].ctx, ctx)
    {
      ExtendsTransitive(inner.trace[i].ctx, child, ctx);
    }
    if inner.out.Returned? && inner.out.ctx.Some? {
      ExtendsTransitive(inner.out.ctx.value, child, ctx);
    }
  }

  /**
   * Framing a run with events that record no handler, keeping its outcome or replacing it with
   * a nil-context return, keeps it descending from `ctx`.
   */
  lemma DescendsFramed(pre: seq<Event>, inner: Run, post: seq<Event>, out: Outcome, ctx: Ctx)
    requires Descends(inner, ctx)
    requires forall e :: e in pre ==> !e.Handled?
    requires forall e :: e in post ==> !e.Handled?
    requires out == inner.out || out == Returned(None)
    ensures Descends(Run(pre + inner.trace + post, out), ctx)
  {
    var trace := pre + inner.trace + post;
    forall i | 0 <= i < |trace| && trace[i].Handled?
      ensures Extends(trace[i].ctx, ctx)
    {
      if |pre| <= i < |pre| + |inner.trace| {
        assert trace[i] == inner.trace[i - |pre|];
      }
    }
  }

  /** Recovery's guard keeps a run descending from `ctx`. */
  lemma RecoverDescends(config: RecoveryWare, inner: Run, ctx: Ctx)
    requires Descends(inner, ctx)
    ensures Descends(Recover(config, inner), ctx)
  {
    var r := Recover(config, inner);
    if inner.out.Panicked? {
      var added := r.trace[|inner.trace|..];
      assert r.trace == [] + inner.trace + added;
      DescendsFramed([], inner, added, r.out, ctx);
    }
  }

  /** Stat's access line keeps a run descending from `ctx`. */
  lemma StatDescends(ignoredPrefixes: seq<string>, req: Request, inner: Run, ctx: Ctx)
    requires Descends(inner, ctx)
    ensures Descends(StatAfter(ignoredPrefixes, req, inner), ctx)
  {
    var r := StatAfter(ignoredPrefixes, req, inner);
    var added := r.trace[|inner.trace|..];
    assert r.trace == [] + inner.trace + added;
    assert forall e :: e in added ==> e.AccessLog?;
    DescendsFramed([], inner, added, r.out, ctx);
  }

  /** Runtime's counter bumps keep a run descending from `ctx`. */
  lemma RuntimeDescends(ignoredUrls: seq<string>, req: Request, inner: Run, ctx: Ctx)
    requires Descends(inner, ctx)
    ensures Descends(RuntimeAfter(ignoredUrls, req, inner), ctx)
  {
    if inner.out.Returned? {
      var bumps := Bumps(RuntimeCounters(ObservedStatus(inner.trace), req.path, ignoredUrls));
      assert forall e :: e in bumps ==> e.Bump?;
      assert RuntimeAfter(ignoredUrls, req, inner) == Run([] + inner.trace + bumps, inner.out);
      DescendsFramed([], inner, bumps, inner.out, ctx);
    }
  }

  /**
   * `_OnionLayer.ServeHTTP`: runs the layer's middleware with the next layer's `ServeHTTP` as
   * its `next`. Contexts only grow inwards: every handler sees, and every returned context is,
   * the incoming context with zero or more bindings added.
   */
  function Serve(o: Onion, ctx: Ctx, req: Request): (r: Run)
    ensures Descends(r, ctx)
    decreases o
  {
    match o
    case Zero => Run([], Panicked(NilDereference))
    case Layer(w, next) =>
      match w
      case Hollow => Run([], Returned(Some(ctx)))
      case Pass(tag) =>
        var inner := Serve(next, ctx, req);
        if inner.out.Panicked? then
          DescendsFramed([Enter(tag)], inner, [], inner.out, ctx);
          assert [Enter(tag)] + inner.trace + [] == [Enter(tag)] + inner.trace;
          Run([Enter(tag)] + inner.trace, inner.out)
        else
          DescendsFramed([Enter(tag)], inner, [Leave(tag)], inner.out, ctx);
          Run([Enter(tag)] + inner.trace + [Leave(tag)], inner.out)
      case Stop(tag, status) => Run([Stopped(tag), WriteHeader(status)], Returned(Some(ctx)))
      case Terminal(tag, status) => Run([Handled(tag, ctx), WriteHeader(status)], Returned(Some(ctx)))
      case Bind(key, val) =>
        var child := WithValue(ctx, key, val);
        var inner := Serve(next, child, req);
        ExtendsThrough(inner, child, ctx);
        inner
      case Panics(msg) => Run([], Panicked(msg))
      case Recovery(config) =>
        var inner := Serve(next, ctx, req);
        RecoverDescends(config, inner, ctx);
        Recover(config, inner)
      case Stat(prefixes) =>
        var inner := Serve(next, ctx, req);
        StatDescends(prefixes, req, inner, ctx);
        StatAfter(prefixes, req, inner)
      case Runtime(urls) =>
        var inner := Serve(next, ctx, req);
        RuntimeDescends(urls, req, inner, ctx);
        RuntimeAfter(urls, req, inner)
  }
}

=== FILE: onion.dfy ===
/**
 * Composition of a middleware list into an onion (`buildOnion`, `hollowOnion`) and the laws of
 * running one: declaration order is outside-in, short-circuits skip every inner layer, derived
 * contexts reach the inner layers, and a Recovery layer guards only the layers inside it.
 */
module Onion {
  import opened Wrappers
  import opened Context
  import opened Middleware

  /** `hollowOnion()`: the sentinel layer ending every chain; its own `next` is the zero layer. */
  function HollowOnion(): (o: Onion)
    ensures forall ctx, req :: Serve(o, ctx, req) == Run([], Returned(Some(ctx)))
  {
    Layer(Hollow, Zero)
  }

  /** The middlewares of a chain, outermost first, up to the zero layer that ends it. */
  function Handlers(o: Onion): seq<Ware>
  {
    match o
    case Zero => []
    case Layer(h, n) => [h] + Handlers(n)
  }

  /**
   * `buildOnion(wares)`: the chain whose layers hold the wares in declaration order followed by
   * the hollow layer, ending in the zero layer.
   */
  function BuildOnion(wares: seq<Ware>): (o: Onion)
    ensures Handlers(o) == wares + [Hollow]
  {
    if |wares| == 0 then HollowOnion()
    else if |wares| > 1 then
      var o := Layer(wares[0], BuildOnion(wares[1..]));
      assert [wares[0]] + (wares[1..] + [Hollow]) == wares + [Hollow];
      o
    else Layer(wares[0], HollowOnion())
  }

  /** A chain is determined by its middlewares, so `BuildOnion`'s contract pins its result down. */
  lemma {:induction false} HandlersDetermineOnion(a: Onion, b: Onion)
    requires Handlers(a) == Handlers(b)
    ensures a == b
  {
    match a
    case Zero =>
    case Layer(h, n) =>
      assert Handlers(b)[0] == h;
      assert Handlers(b)[1..] == Handlers(n);
      HandlersDetermineOnion(n, b.next);
  }

  /**
   * The layer built for a non-empty list holds its first ware, and its `next` is the onion built
   * from the rest; for a one-element list that is the hollow layer.
   */
  lemma BuildOnionCons(wares: seq<Ware>)
    requires |wares| > 0
    ensures BuildOnion(wares) == Layer(wares[0], BuildOnion(wares[1..]))
    ensures |wares| == 1 ==> BuildOnion(wares).next == HollowOnion()
  {
  }

  /**
   * The hollow layer returns its incoming context, writes nothing, and never calls its own
   * `next`: its behaviour is the same whatever layer follows it. An empty list builds it.
   */
  lemma HollowServes(next: Onion, ctx: Ctx, req: Request)
    ensures Serve(Layer(Hollow, next), ctx, req) == Run([], Returned(Some(ctx)))
    ensures BuildOnion([]) == Layer(Hollow, Zero)
    ensures Serve(BuildOnion([]), ctx, req) == Run([], Returned(Some(ctx)))
  {
  }

  /** The context a ware passes to `next`. */
  function NextCtx(w: Ware, ctx: Ctx): Ctx
  {
    if w.Bind? then WithValue(ctx, w.key, w.val) else ctx
  }

  /** A layer's run depends on its `next` only through the run of `next` on the context it passes. */
  lemma LayerCongruence(w: Ware, n1: Onion, n2: Onion, ctx: Ctx, req: Request)
    requires Serve(n1, NextCtx(w, ctx), req) == Serve(n2, NextCtx(w, ctx), req)
    ensures Serve(Layer(w, n1), ctx, req) == Serve(Layer(w, n2), ctx, req)
  {
  }

  /**
   * Short-circuit: once a layer that does not call `next` is reached, no layer listed after it
   * runs: whatever follows it, the chain behaves as if the list ended there.
   */
  lemma {:induction false} ShortCircuit(pre: seq<Ware>, w: Ware, post: seq<Ware>, ctx: Ctx, req: Request)
    requires !CallsNext(w)
    ensures Serve(BuildOnion(pre + [w] + post), ctx, req) == Serve(BuildOnion(pre + [w]), ctx, req)
    decreases |pre|
  {
    var long := pre + [w] + post;
    var short := pre + [w];
    BuildOnionCons(long);
    BuildOnionCons(short);
    if |pre| == 0 {
      assert long[0] == w && short[0] == w;
    } else {
      assert long[0] == pre[0] && short[0] == pre[0];
      assert long[1..] == pre[1..] + [w] + post;
      assert short[1..] == pre[1..] + [w];
      ShortCircuit(pre[1..], w, post, NextCtx(pre[0], ctx), req);
      LayerCongruence(pre[0], BuildOnion(long[1..]), BuildOnion(short[1..]), ctx, req);
    }
  }

  /** One `Pass` layer per tag, in order. */
  function Passes(tags: seq<string>): (ws: seq<Ware>)
    ensures |ws| == |tags|
    ensures forall i :: 0 <= i < |tags| ==> ws[i] == Pass(tags[i])
  {
    if |tags| == 0 then [] else [Pass(tags[0])] + Passes(tags[1..])
  }

  /** The events of the layers tagged `tags` on the way in: list order. */
  function Enters(tags: seq<string>): (es: seq<Event>)
    ensures |es| == |tags|
    ensures forall i :: 0 <= i < |tags| ==> es[i] == Enter(tags[i])
  {
    if |tags| == 0 then [] else [Enter(tags[0])] + Enters(tags[1..])
  }

  /** The events of the layers tagged `tags` on the way out: reverse list order. */
  function Leaves(tags: seq<string>): (es: seq<Event>)
    ensures |es| == |tags|
    ensures forall i :: 0 <= i < |tags| ==> es[i] == Leave(tags[|tags| - 1 - i])
  {
    if |tags| == 0 then [] else Leaves(tags[1..]) + [Leave(tags[0])]
  }

  /** A Pass layer wraps the run of its `next` in its own enter and (unless it panicked) leave events. */
  lemma ServePass(tag: string, next: Onion, ctx: Ctx, req: Request)
    ensures var inner := Serve(next, ctx, req);
      Serve(Layer(Pass(tag), next), ctx, req) == Wrap([tag], inner)
  {
    var inner := Serve(next, ctx, req);
    assert Enters([tag]) == [Enter(tag)];
    assert Leaves([tag]) == [Leave(tag)];
  }

  /** The run of a chain of `Pass` layers tagged `tags` around an inner run. */
  function Wrap(tags: seq<string>, inner: Run): Run
  {
    if inner.out.Panicked? then Run(Enters(tags) + inner.trace, inner.out)
    else Run(Enters(tags) + inner.trace + Leaves(tags), inner.out)
  }

  /** Wrapping in one more Pass layer outside is wrapping in the longer list of tags. */
  lemma WrapWrap(tag: string, tags: seq<string>, inner: Run)
    ensures Wrap([tag], Wrap(tags, inner)) == Wrap([tag] + tags, inner)
  {
    var all := [tag] + tags;
    assert all[1..] == tags;
    assert Enters(all) == [Enter(tag)] + Enters(tags);
    assert Leaves(all) == Leaves(tags) + [Leave(tag)];
    assert Enters([tag]) == [Enter(tag)];
    assert Leaves([tag]) == [Leave(tag)];
    var mid := Wrap(tags, inner);
    if inner.out.Panicked? {
      assert [Enter(tag)] + mid.trace == Enters(all) + inner.trace;
    } else {
      assert [Enter(tag)] + mid.trace + [Leave(tag)] == Enters(all) + inner.trace + Leaves(all);
    }
  }

  /**
   * Pass layers in front of a list wrap the run of the rest: their pre-`next` events come first,
   * in list order, and, unless the inner run panics, their post-`next` events come last, in
   * reverse list order; the outcome is the inner one.
   */
  lemma {:induction false} PassesThenLayers(tags: seq<string>, rest: seq<Ware>, ctx: Ctx, req: Request)
    ensures Serve(BuildOnion(Passes(tags) + rest), ctx, req) == Wrap(tags, Serve(BuildOnion(rest), ctx, req))
    decreases |tags|
  {
    var inner := Serve(BuildOnion(rest), ctx, req);
    if |tags| == 0 {
      assert Passes(tags) + rest == rest;
      assert Enters(tags) + inner.trace == inner.trace;
      assert Enters(tags) + inner.trace + Leaves(tags) == inner.trace;
    } else {
      var ws := Passes(tags) + rest;
      BuildOnionCons(ws);
      assert ws[0] == Pass(tags[0]);
      assert ws[1..] == Passes(tags[1..]) + rest;
      PassesThenLayers(tags[1..], rest, ctx, req);
      ServePass(tags[0], BuildOnion(ws[1..]), ctx, req);
      WrapWrap(tags[0], tags[1..], inner);
      assert [tags[0]] + tags[1..] == tags;
    }
  }

  /** The tags of the Pass layers of a list, in list order. */
  function PassTags(ws: seq<Ware>): seq<string>
  {
    if |ws| == 0 then []
    else if ws[0].Pass? then [ws[0].tag] + PassTags(ws[1..])
    else PassTags(ws[1..])
  }

  /** The bindings of the Bind layers of a list, in list order. */
  function BindPairs(ws: seq<Ware>): seq<(string, Value)>
  {
    if |ws| == 0 then []
    else if ws[0].Bind? then [(ws[0].key, ws[0].val)] + BindPairs(ws[1..])
    else BindPairs(ws[1..])
  }

  /**
   * Ordering: in a list of Pass and Bind layers, each of which calls `next` once, the pre-`next`
   * events occur in list order and the post-`next` events in reverse list order; the context
   * returned is the incoming one extended with the bindings, outermost first.
   */
  lemma {:induction false} InOutOrder(ws: seq<Ware>, ctx: Ctx, req: Request)
    requires forall i :: 0 <= i < |ws| ==> ws[i].Pass? || ws[i].Bind?
    ensures Serve(BuildOnion(ws), ctx, req)
            == Run(Enters(PassTags(ws)) + Leaves(PassTags(ws)), Returned(Some(Extend(ctx, BindPairs(ws)))))
    decreases |ws|
  {
    if |ws| == 0 {
      HollowServes(Zero, ctx, req);
      assert Enters([]) + Leaves([]) == [];
    } else {
      var rest := ws[1..];
      BuildOnionCons(ws);
      if ws[0].Pass? {
        InOutOrder(rest, ctx, req);
        ServePass(ws[0].tag, BuildOnion(rest), ctx, req);
        WrapBalanced(ws[0].tag, PassTags(rest), Returned(Some(Extend(ctx, BindPairs(rest)))));
      } else {
        InOutOrder(rest, WithValue(ctx, ws[0].key, ws[0].val), req);
        BindStep(ws, ctx);
      }
    }
  }

  /** One more Pass layer around a balanced run of Pass layers gives the balanced run of the longer list. */
  lemma WrapBalanced(tag: string, tags: seq<string>, out: Outcome)
    requires out.Returned?
    ensures Wrap([tag], Run(Enters(tags) + Leaves(tags), out))
            == Run(Enters([tag] + tags) + Leaves([tag] + tags), out)
  {
    assert Wrap(tags, Run([], out)) == Run(Enters(tags) + Leaves(tags), out) by {
      assert Enters(tags) + [] + Leaves(tags) == Enters(tags) + Leaves(tags);
    }
    WrapWrap(tag, tags, Run([], out));
    assert Enters([tag] + tags) + [] + Leaves([tag] + tags) == Enters([tag] + tags) + Leaves([tag] + tags);
  }

  /** A Bind layer at the head adds no tag, and its binding comes first. */
  lemma BindStep(ws: seq<Ware>, ctx: Ctx)
    requires |ws| > 0 && ws[0].Bind?
    ensures PassTags(ws) == PassTags(ws[1..])
    ensures Extend(ctx, BindPairs(ws)) == Extend(WithValue(ctx, ws[0].key, ws[0].val), BindPairs(ws[1..]))
  {
    var binds := BindPairs(ws);
    assert binds == [(ws[0].key, ws[0].val)] + BindPairs(ws[1..]);
    assert binds[1..] == BindPairs(ws[1..]);
  }

  /**
   * Short-circuit result: behind Pass layers, a layer that does not call `next` decides the
   * outcome on its own: the chain's run is that layer's run, wrapped by the Pass layers, whatever
   * is listed after it.
   */
  lemma ShortCircuitOutcome(tags: seq<string>, w: Ware, post: seq<Ware>, ctx: Ctx, req: Request)
    requires !CallsNext(w)
    ensures Serve(BuildOnion(Passes(tags) + [w] + post), ctx, req) == Wrap(tags, Serve(Layer(w, Zero), ctx, req))
  {
    var rest := [w] + post;
    assert Passes(tags) + [w] + post == Passes(tags) + rest;
    PassesThenLayers(tags, rest, ctx, req);
    BuildOnionCons(rest);
    assert rest[0] == w && rest[1..] == post;
    SkipsNext(w, BuildOnion(post), Zero, ctx, req);
  }

  /** A layer that does not call `next` runs the same whatever follows it. */
  lemma SkipsNext(w: Ware, n1: Onion, n2: Onion, ctx: Ctx, req: Request)
    requires !CallsNext(w)
    ensures Serve(Layer(w, n1), ctx, req) == Serve(Layer(w, n2), ctx, req)
  {
  }

  /** One `Bind` layer per binding, in order. */
  function Binds(binds: seq<(string, Value)>): (ws: seq<Ware>)
    ensures |ws| == |binds|
    ensures forall i :: 0 <= i < |binds| ==> ws[i] == Bind(binds[i].0, binds[i].1)
  {
    if |binds| == 0 then [] else [Bind(binds[0].0, binds[0].1)] + Binds(binds[1..])
  }

  /**
   * Context threading: layers that call `next` with a derived context hand the rest of the chain
   * the incoming context extended with their bindings, outermost first.
   */
  lemma {:induction false} BindsThenLayers(binds: seq<(string, Value)>, rest: seq<Ware>, ctx: Ctx, req: Request)
    ensures Serve(BuildOnion(Binds(binds) + rest), ctx, req) == Serve(BuildOnion(rest), Extend(ctx, binds), req)
    decreases |binds|
  {
    if |binds| == 0 {
      assert Binds(binds) + rest == rest;
    } else {
      var ws := Binds(binds) + rest;
      BuildOnionCons(ws);
      assert ws[0] == Bind(binds[0].0, binds[0].1);
      assert ws[1..] == Binds(binds[1..]) + rest;
      BindsThenLayers(binds[1..], rest, WithValue(ctx, binds[0].0, binds[0].1), req);
    }
  }

  /**
   * A handler behind binding layers receives, and returns, the incoming context extended with
   * those bindings; a key resolves there to its outermost-listed-last binding, or as in the
   * incoming context when no layer bound it.
   */
  lemma HandlerSeesBindings(binds: seq<(string, Value)>, tag: string, status: int, post: seq<Ware>,
                            ctx: Ctx, req: Request, key: string)
    ensures var seen := Extend(ctx, binds);
      && Serve(BuildOnion(Binds(binds) + [Terminal(tag, status)] + post), ctx, req)
         == Run([Handled(tag, seen), WriteHeader(status)], Returned(Some(seen)))
      && Lookup(seen, key) == (match LastBinding(binds, key) case Some(v) => Some(v) case None => Lookup(ctx, key))
  {
    assert Binds(binds) + [Terminal(tag, status)] + post == Binds(binds) + ([Terminal(tag, status)] + post);
    BindsThenLayers(binds, [Terminal(tag, status)] + post, ctx, req);
    BuildOnionCons([Terminal(tag, status)] + post);
    LookupExtend(ctx, binds, key);
  }

  /** A Recovery layer applies its guard to the run of its `next`. */
  lemma ServeRecovery(config: RecoveryWare, next: Onion, ctx: Ctx, req: Request)
    ensures Serve(Layer(Recovery(config), next), ctx, req) == Recover(config, Serve(next, ctx, req))
  {
  }

  /** A Stat layer logs after the run of its `next`. */
  lemma ServeStat(prefixes: seq<string>, next: Onion, ctx: Ctx, req: Request)
    ensures Serve(Layer(Stat(prefixes), next), ctx, req) == StatAfter(prefixes, req, Serve(next, ctx, req))
  {
  }

  /** A panicking layer panics at once, without running its `next`. */
  lemma ServePanics(msg: string, next: Onion, ctx: Ctx, req: Request)
    ensures Serve(Layer(Panics(msg), next), ctx, req) == Run([], Panicked(msg))
  {
  }

  /** Recovery's guard on a panicking run: status 500, the error log, the optional page, nil context. */
  lemma RecoverPanic(config: RecoveryWare, trace: seq<Event>, msg: string)
    ensures var page := if config.printStack then [PanicPage(msg, config.stackAll)] else [];
      Recover(config, Run(trace, Panicked(msg)))
      == Run(trace + [WriteHeader(StatusInternalServerError), ErrorLog(msg, config.stackAll)] + page, Returned(None))
  {
  }

  /**
   * Recovery guards exactly the layers listed after it. With Pass layers outside it and between
   * it and a panicking layer, the panic is contained: the chain returns normally with the nil
   * context, after status 500, the error log and (with `printStack`) the panic page.
   */
  lemma RecoveryContainsLaterPanic(outer: seq<string>, config: RecoveryWare, mid: seq<string>, msg: string,
                                   post: seq<Ware>, ctx: Ctx, req: Request)
    ensures var page := if config.printStack then [PanicPage(msg, config.stackAll)] else [];
      Serve(BuildOnion(Passes(outer) + [Recovery(config)] + Passes(mid) + [Panics(msg)] + post), ctx, req)
      == Wrap(outer, Run(Enters(mid) + [WriteHeader(StatusInternalServerError), ErrorLog(msg, config.stackAll)] + page,
                         Returned(None)))
  {
    var inside := Passes(mid) + [Panics(msg)] + post;
    var guarded := [Recovery(config)] + inside;
    var page := if config.printStack then [PanicPage(msg, config.stackAll)] else [];
    var contained := Run(Enters(mid) + [WriteHeader(StatusInternalServerError), ErrorLog(msg, config.stackAll)] + page,
                         Returned(None));
    assert Passes(outer) + [Recovery(config)] + Passes(mid) + [Panics(msg)] + post == Passes(outer) + guarded;
    assert Serve(BuildOnion(guarded), ctx, req) == contained by {
      PanicBeforeRecoveryEscapes(mid, msg, post, ctx, req);
      GuardedRun(config, inside, ctx, req);
      RecoverPanic(config, Enters(mid), msg);
    }
    PassesThenLayers(outer, guarded, ctx, req);
  }

  /**
   * Recovery contains a panic raised behind any layers that call `next` and are not Recovery
   * layers themselves: the run of the guarded list is the inner run, then status 500, the error
   * log and (with `printStack`) the panic page, and the nil context is returned.
   */
  lemma RecoveryContainsPanic(config: RecoveryWare, mid: seq<Ware>, msg: string, post: seq<Ware>, ctx: Ctx, req: Request)
    requires forall i :: 0 <= i < |mid| ==> CallsNext(mid[i]) && !mid[i].Recovery?
    ensures var inner := Serve(BuildOnion(mid + [Panics(msg)] + post), ctx, req);
      var page := if config.printStack then [PanicPage(msg, config.stackAll)] else [];
      Serve(BuildOnion([Recovery(config)] + mid + [Panics(msg)] + post), ctx, req)
      == Run(inner.trace + [WriteHeader(StatusInternalServerError), ErrorLog(msg, config.stackAll)] + page, Returned(None))
  {
    var inside := mid + [Panics(msg)] + post;
    assert [Recovery(config)] + mid + [Panics(msg)] + post == [Recovery(config)] + inside;
    GuardedRun(config, inside, ctx, req);
    PanicEscapesCallingLayers(mid, msg, post, ctx, req);
    RecoverPanic(config, Serve(BuildOnion(inside), ctx, req).trace, msg);
  }

  /** A Recovery layer at the head of a list guards the run of the rest of the list. */
  lemma GuardedRun(config: RecoveryWare, inside: seq<Ware>, ctx: Ctx, req: Request)
    ensures Serve(BuildOnion([Recovery(config)] + inside), ctx, req) == Recover(config, Serve(BuildOnion(inside), ctx, req))
  {
    var guarded := [Recovery(config)] + inside;
    BuildOnionCons(guarded);
    assert guarded[1..] == inside;
    ServeRecovery(config, BuildOnion(inside), ctx, req);
  }

  /**
   * A Recovery layer does not guard the layers listed before it: a panic raised in front of it
   * escapes the chain, and nothing after the panicking layer runs.
   */
  lemma PanicBeforeRecoveryEscapes(tags: seq<string>, msg: string, post: seq<Ware>, ctx: Ctx, req: Request)
    ensures Serve(BuildOnion(Passes(tags) + [Panics(msg)] + post), ctx, req) == Run(Enters(tags), Panicked(msg))
  {
    ShortCircuitOutcome(tags, Panics(msg), post, ctx, req);
    assert Enters(tags) + [] == Enters(tags);
  }

  /**
   * A Recovery layer only guards the layers listed after it: behind any layers that call `next`
   * and are not themselves Recovery layers (Pass, Bind, Stat, Runtime), a panic escapes the
   * whole chain.
   */
  lemma {:induction false} PanicEscapesCallingLayers(pre: seq<Ware>, msg: string, post: seq<Ware>, ctx: Ctx, req: Request)
    requires forall i :: 0 <= i < |pre| ==> CallsNext(pre[i]) && !pre[i].Recovery?
    ensures Serve(BuildOnion(pre + [Panics(msg)] + post), ctx, req).out == Panicked(msg)
    decreases |pre|
  {
    var ws := pre + [Panics(msg)] + post;
    BuildOnionCons(ws);
    if |pre| == 0 {
      assert ws[0] == Panics(msg);
    } else {
      assert ws[0] == pre[0] && ws[1..] == pre[1..] + [Panics(msg)] + post;
      PanicEscapesCallingLayers(pre[1..], msg, post, NextCtx(pre[0], ctx), req);
    }
  }

  /**
   * Behind any layers that call `next` (Pass, Bind, Recovery, Stat, Runtime), a Recovery layer
   * makes the whole chain return normally, whatever follows it.
   */
  lemma {:induction false} RecoveryNeverPanics(pre: seq<Ware>, config: RecoveryWare, post: seq<Ware>, ctx: Ctx, req: Request)
    requires forall i :: 0 <= i < |pre| ==> CallsNext(pre[i])
    ensures Serve(BuildOnion(pre + [Recovery(config)] + post), ctx, req).out.Returned?
    decreases |pre|
  {
    var ws := pre + [Recovery(config)] + post;
    BuildOnionCons(ws);
    if |pre| == 0 {
      assert ws[0] == Recovery(config);
    } else {
      assert ws[0] == pre[0] && ws[1..] == pre[1..] + [Recovery(config)] + post;
      RecoveryNeverPanics(pre[1..], config, post, NextCtx(pre[0], ctx), req);
    }
  }

  /**
   * A Recovery layer directly in front of a panicking one: the guarded run is status 500, the
   * error log and (with `printStack`) the panic page, returning the nil context.
   */
  lemma ContainedPanic(config: RecoveryWare, msg: string, post: seq<Ware>, ctx: Ctx, req: Request)
    ensures var page := if config.printStack then [PanicPage(msg, config.stackAll)] else [];
      Serve(BuildOnion([Recovery(config), Panics(msg)] + post), ctx, req)
      == Run([WriteHeader(StatusInternalServerError), ErrorLog(msg, config.stackAll)] + page, Returned(None))
  {
    var ws := [Recovery(config), Panics(msg)] + post;
    BuildOnionCons(ws);
    assert ws[1..] == [Panics(msg)] + post;
    BuildOnionCons(ws[1..]);
    assert ws[1..][1..] == post;
    ServePanics(msg, BuildOnion(post), ctx, req);
    ServeRecovery(config, BuildOnion(ws[1..]), ctx, req);
    RecoverPanic(config, [], msg);
  }

  /**
   * Stat outside Recovery sees the status 500 Recovery wrote for a contained panic and logs the
   * request at warning level, whatever its ignored prefixes.
   */
  lemma StatLogsContainedPanic(prefixes: seq<string>, config: RecoveryWare, msg: string, post: seq<Ware>,
                               ctx: Ctx, req: Request)
    ensures var r := Serve(BuildOnion([Stat(prefixes), Recovery(config)] + [Panics(msg)] + post), ctx, req);
      && r.out == Returned(None)
      && |r.trace| > 0 && r.trace[|r.trace| - 1] == AccessLog(Warn, req.verb, req.path, StatusInternalServerError)
  {
    var rest := [Recovery(config), Panics(msg)] + post;
    var ws := [Stat(prefixes), Recovery(config)] + [Panics(msg)] + post;
    BuildOnionCons(ws);
    assert ws[0] == Stat(prefixes) && ws[1..] == rest;
    ContainedPanic(config, msg, post, ctx, req);
    var recovered := Serve(BuildOnion(rest), ctx, req);
    assert recovered.trace[0] == WriteHeader(StatusInternalServerError);
    assert ObservedStatus(recovered.trace) == StatusInternalServerError;
    ServeStat(prefixes, BuildOnion(rest), ctx, req);
  }

  /** Stat inside Recovery is skipped by a panic raised behind it: no access line is logged. */
  lemma PanicSkipsInnerStat(config: RecoveryWare, prefixes: seq<string>, msg: string, post: seq<Ware>,
                            ctx: Ctx, req: Request)
    ensures var r := Serve(BuildOnion([Recovery(config), Stat(prefixes)] + [Panics(msg)] + post), ctx, req);
      forall e :: e in r.trace ==> !e.AccessLog?
  {
    var rest := [Stat(prefixes), Panics(msg)] + post;
    var ws := [Recovery(config), Stat(prefixes)] + [Panics(msg)] + post;
    BuildOnionCons(ws);
    assert ws[0] == Recovery(config) && ws[1..] == rest;
    assert Serve(BuildOnion(rest), ctx, req) == Run([], Panicked(msg)) by {
      BuildOnionCons(rest);
      assert rest[1..] == [Panics(msg)] + post;
      BuildOnionCons(rest[1..]);
      ServePanics(msg, BuildOnion(rest[1..][1..]), ctx, req);
      ServeStat(prefixes, BuildOnion(rest[1..]), ctx, req);
    }
    ServeRecovery(config, BuildOnion(rest), ctx, req);
    RecoverPanic(config, [], msg);
  }
}

=== FILE: router.dfy ===
/**
 * The boundary of the external URL router (httprouter): the path parameters it hands to a
 * matched route. Its trie matching is not part of this model; `ByName` is stated as an
 * assumption about the library: a linear scan returning the first matching entry.
 */
module Router {

  /** One resolved path parameter, `:name` or `*name` in the route template. */
  datatype Param = Param(key: string, value: string)

  /** True when some entry of `params` carries `key`. */
  predicate HasKey(params: seq<Param>, key: string) {
    exists i :: 0 <= i < |params| && params[i].key == key
  }

  /** True when entry `i` is the first one carrying `key`. */
  predicate FirstWithKey(params: seq<Param>, key: string, i: int) {
    0 <= i < |params| && params[i].key == key && forall j :: 0 <= j < i ==> params[j].key != key
  }

  /**
   * `Params.ByName`: the value of the first entry whose key is `key`, or the empty string
   * when there is none.
   */
  function ByName(params: seq<Param>, key: string): (v: string)
    ensures !HasKey(params, key) ==> v == ""
    ensures forall i :: FirstWithKey(params, key, i) ==> v == params[i].value
  {
    if |params| == 0 then ""
    else if params[0].key == key then params[0].value
    else
      assert forall i :: FirstWithKey(params, key, i) ==> FirstWithKey(params[1..], key, i - 1);
      ByName(params[1..], key)
  }

  /** Whenever some entry carries `key`, a first such entry exists, so `ByName` is determined. */
  lemma {:induction false} FirstWithKeyExists(params: seq<Param>, key: string)
    requires HasKey(params, key)
    ensures exists i :: FirstWithKey(params, key, i)
  {
    if params[0].key == key {
      assert FirstWithKey(params, key, 0);
    } else {
      var i :| 0 <= i < |params| && params[i].key == key;
      assert params[1..][i - 1].key == key;
      FirstWithKeyExists(params[1..], key);
      var k :| FirstWithKey(params[1..], key, k);
      assert FirstWithKey(params, key, k + 1);
    }
  }
}

=== FILE: routes.dfy ===
/**
 * Named routes and reverse routing: resolving a route name plus positional arguments back into a
 * concrete path, and the static-assets mount recorded under a reserved name.
 */
module Routes {
  import opened Strings
  import opened Server
  import Context

  /** The reserved route name of the static-assets mount path. */
  const AssetsReverseKey: string := "_!#assets_"

  /** What `Reverse` returns for a name that was never registered. */
  const NoSuchRoute: string := "/no_such_named_routes_defined"

  /**
   * The result of reversing a route: a resolved path; the fallback path for an unknown name
   * (a warning is logged); or the index-out-of-range panic raised on the empty template segment
   * at position `segment`.
   */
  datatype Reversal = Resolved(path: string) | Unknown(path: string) | Fault(segment: nat)

  /** A template segment standing for a parameter (`:name`) or a wildcard (`*name`). */
  predicate IsPlaceholder(part: string)
  {
    |part| > 0 && (part[0] == ':' || part[0] == '*')
  }

  /** The number of placeholders among `parts`. */
  function Placeholders(parts: seq<string>): nat
  {
    if |parts| == 0 then 0 else (if IsPlaceholder(parts[0]) then 1 else 0) + Placeholders(parts[1..])
  }

  /** The segments after the leading `/` of a template: `strings.Split(path, "/")[1:]`. */
  function Segments(template: string): seq<string>
  {
    Split(template, '/')[1..]
  }

  /**
   * The substitution loop: left to right, each placeholder takes the next unused argument while
   * any remain; other segments, and placeholders beyond the last argument, stay as written.
   */
  function Substitute(parts: seq<string>, args: seq<string>): (out: seq<string>)
    ensures |out| == |parts|
    ensures forall i :: 0 <= i < |parts| && !IsPlaceholder(parts[i]) ==> out[i] == parts[i]
    ensures forall i :: 0 <= i < |parts| ==> out[i] == parts[i] || out[i] in args
  {
    if |parts| == 0 then []
    else if IsPlaceholder(parts[0]) && |args| > 0 then [args[0]] + Substitute(parts[1..], args[1..])
    else [parts[0]] + Substitute(parts[1..], args)
  }

  /** The segment at position `i` after substitution, stated independently of the loop. */
  function SubstitutedAt(parts: seq<string>, args: seq<string>, i: nat): string
    requires i < |parts|
  {
    var rank := Placeholders(parts[..i]);
    if IsPlaceholder(parts[i]) && rank < |args| then args[rank] else parts[i]
  }

  /**
   * Positional substitution: the placeholder with `k` placeholders before it takes argument `k`
   * when there is one; every other segment is unchanged.
   */
  lemma {:induction false} SubstituteIsPositional(parts: seq<string>, args: seq<string>)
    ensures forall i :: 0 <= i < |parts| ==> Substitute(parts, args)[i] == SubstitutedAt(parts, args, i)
    decreases |parts|
  {
    if |parts| > 0 {
      var out := Substitute(parts, args);
      var used := if IsPlaceholder(parts[0]) && |args| > 0 then 1 else 0;
      var rest := args[used..];
      SubstituteIsPositional(parts[1..], rest);
      assert out[1..] == Substitute(parts[1..], rest);
      forall i | 0 <= i < |parts| ensures out[i] == SubstitutedAt(parts, args, i) {
        if i > 0 {
          assert out[i] == SubstitutedAt(parts[1..], rest, i - 1);
          SubstitutedAtShift(parts, args, i);
        } else {
          assert parts[..0] == [];
        }
      }
    }
  }

  /** Past the first segment, the positional reading continues on the rest with the unused arguments. */
  lemma SubstitutedAtShift(parts: seq<string>, args: seq<string>, i: nat)
    requires 0 < i < |parts|
    ensures var rest := args[if IsPlaceholder(parts[0]) && |args| > 0 then 1 else 0..];
      SubstitutedAt(parts, args, i) == SubstitutedAt(parts[1..], rest, i - 1)
  {
    assert parts[..i] == [parts[0]] + parts[1..][..i - 1];
    assert parts[..i][1..] == parts[1..][..i - 1];
  }

  /**
   * Exactly `min(placeholders, arguments)` arguments are used: the first that many placeholders
   * are filled, in order, so surplus arguments are ignored and surplus placeholders stay.
   */
  lemma {:induction false} FilledPlaceholders(parts: seq<string>, args: seq<string>, k: nat)
    requires k < Placeholders(parts) && k < |args|
    ensures exists i :: 0 <= i < |parts| && IsPlaceholder(parts[i]) && Placeholders(parts[..i]) == k
                        && Substitute(parts, args)[i] == args[k]
    decreases |parts|
  {
    SubstituteIsPositional(parts, args);
    PlaceholderOfRankExists(parts, k);
    var i :| 0 <= i < |parts| && IsPlaceholder(parts[i]) && Placeholders(parts[..i]) == k;
    assert Substitute(parts, args)[i] == SubstitutedAt(parts, args, i);
  }

  /** The position of the placeholder with `k` placeholders before it. */
  lemma {:induction false} PlaceholderOfRankExists(parts: seq<string>, k: nat)
    requires k < Placeholders(parts)
    ensures exists i :: 0 <= i < |parts| && IsPlaceholder(parts[i]) && Placeholders(parts[..i]) == k
    decreases |parts|
  {
    assert parts[..0] == [];
    if IsPlaceholder(parts[0]) && k == 0 {
      assert 0 <= 0 < |parts| && IsPlaceholder(parts[0]) && Placeholders(parts[..0]) == k;
    } else {
      var k' := if IsPlaceholder(parts[0]) then k - 1 else k;
      PlaceholderOfRankExists(parts[1..], k');
      var j :| 0 <= j < |parts[1..]| && IsPlaceholder(parts[1..][j]) && Placeholders(parts[1..][..j]) == k';
      assert parts[..j + 1] == [parts[0]] + parts[1..][..j];
      assert parts[..j + 1][1..] == parts[1..][..j];
      assert 0 <= j + 1 < |parts| && IsPlaceholder(parts[j + 1]) && Placeholders(parts[..j + 1]) == k;
    }
  }

  /** The path assembled before cleaning: `"/" + strings.Join(segments, "/")`. */
  function Assemble(parts: seq<string>, args: seq<string>): string
  {
    "/" + Join(Substitute(parts, args), '/')
  }

  /**
   * For a template with at least one separator, and arguments free of `/`, the assembled path
   * splits back into the root and the substituted segments, so it has as many segments as the
   * template.
   */
  lemma AssembleSegments(template: string, args: seq<string>)
    requires |Segments(template)| > 0
    requires forall k :: 0 <= k < |args| ==> '/' !in args[k]
    ensures Split(Assemble(Segments(template), args), '/') == [""] + Substitute(Segments(template), args)
    ensures |Split(Assemble(Segments(template), args), '/')| == |Split(template, '/')|
  {
    var parts := Segments(template);
    var out := Substitute(parts, args);
    SubstituteIsPositional(parts, args);
    assert forall i :: 0 <= i < |out| ==> '/' !in out[i] by {
      forall i | 0 <= i < |out| ensures '/' !in out[i] {
        assert parts[i] == Split(template, '/')[i + 1];
      }
    }
    assert "/" + Join(out, '/') == "" + ['/'] + Join(out, '/');
    SplitPiece("", Join(out, '/'), '/');
    SplitJoin(out, '/');
  }

  /** Index of the first empty segment, if any: where the substitution loop faults. */
  function FirstEmpty(parts: seq<string>): (i: nat)
    ensures i <= |parts|
    ensures forall j :: 0 <= j < i ==> parts[j] != ""
    ensures i < |parts| ==> parts[i] == ""
  {
    if |parts| == 0 then 0
    else if parts[0] == "" then 0
    else 1 + FirstEmpty(parts[1..])
  }

  /**
   * `Reverse(name, params...)`. An unknown name yields the fallback path (with a warning). With no
   * arguments, or for the root template `/`, the stored template is returned verbatim, uncleaned.
   * Otherwise the loop faults on the first empty segment, if there is one; if not, the result is
   * `cleanPath` of the assembled path.
   */
  function Reverse(s: Server, name: string, params: seq<Arg>, cleanPath: string -> string): (r: Reversal)
    ensures name !in s.namedRoutes <==> r.Unknown?
    ensures r.Unknown? ==> r.path == NoSuchRoute
    ensures name in s.namedRoutes && (|params| == 0 || s.namedRoutes[name] == "/") ==>
      r == Resolved(s.namedRoutes[name])
    ensures r.Fault? <==>
      name in s.namedRoutes && |params| > 0 && s.namedRoutes[name] != "/" && "" in Segments(s.namedRoutes[name])
    ensures r.Fault? ==>
      var parts := Segments(s.namedRoutes[name]);
      r.segment < |parts| && parts[r.segment] == "" && forall j :: 0 <= j < r.segment ==> parts[j] != ""
    ensures r.Resolved? && |params| > 0 && s.namedRoutes[name] != "/" ==>
      r.path == cleanPath(Assemble(Segments(s.namedRoutes[name]), Sprints(params)))
  {
    if name !in s.namedRoutes then Unknown(NoSuchRoute)
    else
      var path := s.namedRoutes[name];
      if |params| == 0 || path == "/" then Resolved(path)
      else
        var parts := Segments(path);
        var i := FirstEmpty(parts);
        if i < |parts| then Fault(i)
        else Resolved(cleanPath(Assemble(parts, Sprints(params))))
  }

  /** `fmt.Sprint` of each argument. */
  function Sprints(params: seq<Arg>): (strs: seq<string>)
    ensures |strs| == |params|
    ensures forall i :: 0 <= i < |params| ==> strs[i] == Sprint(params[i])
  {
    if |params| == 0 then [] else [Sprint(params[0])] + Sprints(params[1..])
  }

  /** `EnableExtraAssetsMapping(m)`: replaces the asset override table, nothing else. */
  function EnableExtraAssetsMapping(s: Server, assetsMapping: map<string, string>): (r: Server)
    ensures r.extraAssetsMapping == assetsMapping
    ensures r.(extraAssetsMapping := s.extraAssetsMapping) == s
  {
    s.(extraAssetsMapping := assetsMapping)
  }

  /**
   * `Files(path, root)`, as far as the route table goes: the mount path is recorded under the
   * reserved assets name; every other name keeps its template.
   */
  function Files(s: Server, path: string): (r: Server)
    ensures r.namedRoutes.Keys == s.namedRoutes.Keys + {AssetsReverseKey}
    ensures r.namedRoutes[AssetsReverseKey] == path
    ensures forall name :: name in s.namedRoutes && name != AssetsReverseKey ==> r.namedRoutes[name] == s.namedRoutes[name]
    ensures r.(namedRoutes := s.namedRoutes) == s
  {
    s.(namedRoutes := s.namedRoutes[AssetsReverseKey := path])
  }

  /**
   * `Assets(path)`: reverses the assets mount with the path as its single argument, after
   * replacing the path by its override when one is configured.
   */
  function Assets(s: Server, path: string, cleanPath: string -> string): (r: Reversal)
    ensures path in s.extraAssetsMapping ==>
      r == Reverse(s, AssetsReverseKey, [StrArg(s.extraAssetsMapping[path])], cleanPath)
    ensures path !in s.extraAssetsMapping ==> r == Reverse(s, AssetsReverseKey, [StrArg(path)], cleanPath)
  {
    var asset := if path in s.extraAssetsMapping then s.extraAssetsMapping[path] else path;
    Reverse(s, AssetsReverseKey, [StrArg(asset)], cleanPath)
  }

  /** A path segment that path cleaning leaves alone: not empty, not `.`, not `..`. */
  predicate CanonicalSegment(seg: string)
  {
    seg != "" && seg != "." && seg != ".."
  }

  /** A rooted path whose segments are all canonical: nothing for path cleaning to do. */
  predicate Canonical(path: string)
  {
    var parts := Split(path, '/');
    |parts| >= 2 && parts[0] == "" && forall i :: 1 <= i < |parts| ==> CanonicalSegment(parts[i])
  }

  /**
   * The one property of httprouter's `CleanPath` the model relies on, as an assumption: it
   * returns a canonical path unchanged.
   */
  ghost predicate CleanKeepsCanonical(cleanPath: string -> string)
  {
    forall path :: Canonical(path) ==> cleanPath(path) == path
  }

  /** Substituting canonical arguments into canonical segments leaves every segment canonical. */
  lemma SubstituteKeepsCanonical(parts: seq<string>, args: seq<string>)
    requires forall i :: 0 <= i < |parts| ==> CanonicalSegment(parts[i])
    requires forall k :: 0 <= k < |args| ==> CanonicalSegment(args[k])
    ensures forall i :: 0 <= i < |parts| ==> CanonicalSegment(Substitute(parts, args)[i])
  {
    SubstituteIsPositional(parts, args);
  }

  /** The segments after the root of a canonical path are canonical, hence none is empty. */
  lemma CanonicalSegments(template: string)
    requires Canonical(template)
    ensures forall i :: 0 <= i < |Segments(template)| ==> CanonicalSegment(Segments(template)[i])
    ensures "" !in Segments(template)
  {
    var parts := Segments(template);
    forall i | 0 <= i < |parts| ensures CanonicalSegment(parts[i]) {
      assert parts[i] == Split(template, '/')[i + 1];
    }
  }

  /**
   * Substituting canonical arguments free of `/` into the canonical segments of a template
   * assembles a canonical path whose segments are the substituted ones.
   */
  lemma AssembleCanonical(template: string, args: seq<string>)
    requires Canonical(template)
    requires forall k :: 0 <= k < |args| ==> CanonicalSegment(args[k]) && '/' !in args[k]
    ensures Split(Assemble(Segments(template), args), '/') == [""] + Substitute(Segments(template), args)
    ensures Canonical(Assemble(Segments(template), args))
  {
    var parts := Segments(template);
    CanonicalSegments(template);
    AssembleSegments(template, args);
    SubstituteKeepsCanonical(parts, args);
  }

  /**
   * With a canonical template, canonical arguments free of `/`, and a `CleanPath` that keeps
   * canonical paths, reversing yields exactly the assembled path: the template's segments with
   * its placeholders replaced positionally, joined under a leading `/`.
   */
  lemma ReverseCanonical(s: Server, name: string, params: seq<Arg>, cleanPath: string -> string)
    requires name in s.namedRoutes && |params| > 0 && s.namedRoutes[name] != "/"
    requires Canonical(s.namedRoutes[name])
    requires forall k :: 0 <= k < |params| ==> CanonicalSegment(Sprint(params[k])) && '/' !in Sprint(params[k])
    requires CleanKeepsCanonical(cleanPath)
    ensures Reverse(s, name, params, cleanPath) == Resolved(Assemble(Segments(s.namedRoutes[name]), Sprints(params)))
  {
    var path := Assemble(Segments(s.namedRoutes[name]), Sprints(params));
    ReverseCanonicalTemplate(s, name, params, cleanPath);
    AssembledCanonical(s.namedRoutes[name], params);
    CleanCanonical(cleanPath, path);
  }

  /** Canonical arguments free of `/`, substituted into a canonical template, assemble a canonical path. */
  lemma AssembledCanonical(template: string, params: seq<Arg>)
    requires Canonical(template)
    requires forall k :: 0 <= k < |params| ==> CanonicalSegment(Sprint(params[k])) && '/' !in Sprint(params[k])
    ensures Canonical(Assemble(Segments(template), Sprints(params)))
  {
    var args := Sprints(params);
    assert forall k :: 0 <= k < |args| ==> CanonicalSegment(args[k]) && '/' !in args[k];
    AssembleCanonical(template, args);
  }

  /** A canonical template reversed with arguments resolves to the cleaned assembled path. */
  lemma ReverseCanonicalTemplate(s: Server, name: string, params: seq<Arg>, cleanPath: string -> string)
    requires name in s.namedRoutes && |params| > 0 && s.namedRoutes[name] != "/"
    requires Canonical(s.namedRoutes[name])
    ensures Reverse(s, name, params, cleanPath)
         == Resolved(cleanPath(Assemble(Segments(s.namedRoutes[name]), Sprints(params))))
  {
    CanonicalSegments(s.namedRoutes[name]);
    ReverseResolves(s, name, params, cleanPath);
  }

  /** A known, non-root template without empty segments, reversed with arguments, is resolved. */
  lemma ReverseResolves(s: Server, name: string, params: seq<Arg>, cleanPath: string -> string)
    requires name in s.namedRoutes && |params| > 0 && s.namedRoutes[name] != "/"
    requires "" !in Segments(s.namedRoutes[name])
    ensures Reverse(s, name, params, cleanPath)
         == Resolved(cleanPath(Assemble(Segments(s.namedRoutes[name]), Sprints(params))))
  {
  }

  /** Under the cleaning assumption, a canonical path is its own cleaned form. */
  lemma CleanCanonical(cleanPath: string -> string, path: string)
    requires CleanKeepsCanonical(cleanPath) && Canonical(path)
    ensures cleanPath(path) == path
  {
  }

  /** The split of a two-segment rooted path. */
  lemma SplitTemplate2(a: string, b: string)
    requires '/' !in a && '/' !in b
    ensures Split("/" + a + "/" + b, '/') == ["", a, b]
  {
    var parts := ["", a, b];
    assert Join(parts, '/') == "/" + a + "/" + b by {
      assert parts[1..] == [a, b];
      assert parts[1..][1..] == [b];
      assert Join(parts[1..], '/') == a + "/" + b;
      assert "" + "/" + (a + "/" + b) == "/" + a + "/" + b;
    }
    SplitJoin(parts, '/');
  }

  /** A rooted path of two canonical segments is canonical. */
  lemma CanonicalTwo(a: string, b: string)
    requires '/' !in a && '/' !in b && CanonicalSegment(a) && CanonicalSegment(b)
    ensures Canonical("/" + a + "/" + b)
  {
    SplitTemplate2(a, b);
  }

  /** Assembling a literal segment followed by a filled placeholder. */
  lemma AssembleTwo(a: string, placeholder: string, arg: string)
    requires !IsPlaceholder(a) && IsPlaceholder(placeholder)
    ensures Assemble([a, placeholder], [arg]) == "/" + a + "/" + arg
  {
    assert Substitute([a, placeholder], [arg]) == [a, arg] by {
      assert [a, placeholder][1..] == [placeholder];
      assert Substitute([placeholder], [arg]) == [arg];
    }
    assert Join([a, arg], '/') == a + "/" + arg;
  }

  /**
   * Reversing a template `/a/:p` (one literal segment, then one placeholder) with one argument
   * fills the placeholder: the result is the cleaned `/a/<arg>`.
   */
  lemma ReverseOneParameter(s: Server, name: string, a: string, placeholder: string, arg: Arg,
                            cleanPath: string -> string)
    requires name in s.namedRoutes && s.namedRoutes[name] == "/" + a + "/" + placeholder
    requires a != "" && '/' !in a && !IsPlaceholder(a)
    requires '/' !in placeholder && IsPlaceholder(placeholder)
    ensures Reverse(s, name, [arg], cleanPath) == Resolved(cleanPath("/" + a + "/" + Sprint(arg)))
  {
    SplitTemplate2(a, placeholder);
    assert Segments(s.namedRoutes[name]) == [a, placeholder];
    assert Sprints([arg]) == [Sprint(arg)];
    AssembleTwo(a, placeholder, Sprint(arg));
    assert s.namedRoutes[name] != "/" by {
      assert |s.namedRoutes[name]| > 1;
    }
  }

  /**
   * Reversing `/users/:id` with the argument 42 gives `/users/42`, given a `CleanPath` that
   * keeps canonical paths.
   */
  lemma ReverseUserExample(s: Server, cleanPath: string -> string)
    requires "user" in s.namedRoutes && s.namedRoutes["user"] == "/users/:id"
    requires CleanKeepsCanonical(cleanPath)
    ensures Reverse(s, "user", [IntArg(42)], cleanPath) == Resolved("/users/42")
  {
    UserTemplateText();
    UserSegmentKinds();
    UserResultText();
    ReverseOneParameter(s, "user", "users", ":id", IntArg(42), cleanPath);
    UserResultCanonical();
    CleanCanonical(cleanPath, "/users/42");
  }

  /** The `/users/:id` template is a literal segment followed by a placeholder. */
  lemma UserTemplateText()
    ensures "/users/:id" == "/" + "users" + "/" + ":id"
  {
  }

  /** `users` is a plain segment and `:id` a placeholder, neither holding a `/`. */
  lemma UserSegmentKinds()
    ensures "users" != "" && '/' !in "users" && !IsPlaceholder("users")
    ensures '/' !in ":id" && IsPlaceholder(":id")
  {
  }

  /** Filling `:id` with 42 spells `/users/42`. */
  lemma UserResultText()
    ensures "/" + "users" + "/" + Sprint(IntArg(42)) == "/users/42"
  {
    SprintFortyTwo();
  }

  /** The decimal text of 42 is `42`. */
  lemma SprintFortyTwo()
    ensures Sprint(IntArg(42)) == "42"
  {
    assert Digit(4) == '4' && Digit(2) == '2';
    assert NatToDecimal(42) == NatToDecimal(4) + [Digit(2)];
  }

  /** `/users/42` is already a clean path. */
  lemma UserResultCanonical()
    ensures Canonical("/users/42")
  {
    CanonicalTwo("users", "42");
    assert "/users/42" == "/" + "users" + "/" + "42";
  }

  /**
   * After `Files` mounts a path made of one directory segment and a wildcard segment, `Assets(p)` resolves to the cleaned
   * `/dir/<p>`, where `<p>` is the configured override of `p` if there is one.
   */
  lemma AssetsAfterFiles(s: Server, dir: string, wildcard: string, path: string, cleanPath: string -> string)
    requires dir != "" && '/' !in dir && !IsPlaceholder(dir)
    requires '/' !in wildcard && IsPlaceholder(wildcard)
    ensures var served := Files(s, "/" + dir + "/" + wildcard);
      var asset := if path in s.extraAssetsMapping then s.extraAssetsMapping[path] else path;
      Assets(served, path, cleanPath) == Resolved(cleanPath("/" + dir + "/" + asset))
  {
    var served := Files(s, "/" + dir + "/" + wildcard);
    var asset := if path in s.extraAssetsMapping then s.extraAssetsMapping[path] else path;
    ReverseOneParameter(served, AssetsReverseKey, dir, wildcard, StrArg(asset), cleanPath);
  }

  /** A new server has no named routes: every name reverses to the fallback path. */
  lemma NewServerReversesNothing(ctx: Context.Ctx, isDebug: bool, name: string, params: seq<Arg>,
                                 cleanPath: string -> string)
    ensures Reverse(New(ctx, isDebug), name, params, cleanPath) == Unknown(NoSuchRoute)
  {
  }

  /** Registering a route with the router does not name it: reverse routing is unchanged. */
  lemma HandleKeepsReverse(s: Server, verb: string, path: string, handler: string, name: string,
                           params: seq<Arg>, cleanPath: string -> string)
    ensures Reverse(Handle(s, verb, path, handler), name, params, cleanPath) == Reverse(s, name, params, cleanPath)
    ensures Reverse(Get(s, path, handler), name, params, cleanPath) == Reverse(s, name, params, cleanPath)
  {
  }

  /**
   * After `EnableExtraAssetsMapping(m)`, `Assets(p)` reverses the assets route with `m[p]` when
   * `p` has an override in `m`, and with `p` itself otherwise; earlier overrides play no part.
   */
  lemma AssetsUseOverrides(s: Server, m: map<string, string>, path: string, cleanPath: string -> string)
    ensures var mapped := EnableExtraAssetsMapping(s, m);
      && (path in m ==> Assets(mapped, path, cleanPath) == Reverse(s, AssetsReverseKey, [StrArg(m[path])], cleanPath))
      && (path !in m ==> Assets(mapped, path, cleanPath) == Reverse(s, AssetsReverseKey, [StrArg(path)], cleanPath))
  {
  }
}

=== FILE: server.dfy ===
/**
 * The router facade: the server state, route registration, and the adaptor that hands a matched
 * route's path parameters to its handler through the request context.
 */
module Server {
  import opened Wrappers
  import opened Router
  import opened Context

  /** The reserved context key under which a request's path parameters are bound. */
  const HrParamsKey: string := "inter_ctx_key_hrparams"

  /** A registration with the external router; the handler is identified by name. */
  datatype Route = Route(verb: string, path: string, handler: string)

  /**
   * The server: its base context, the router's registrations, the debug flag, the named-route
   * table (name to path template) and the optional override table for asset paths.
   */
  datatype Server = Server(
    context: Ctx,
    routes: seq<Route>,
    debug: bool,
    namedRoutes: map<string, string>,
    extraAssetsMapping: map<string, string>)

  /** `New(ctx, isDebug)`: a server over `ctx` with nothing registered. */
  function New(ctx: Ctx, isDebug: bool): (s: Server)
    ensures s.context == ctx && s.debug == isDebug
    ensures s.routes == [] && s.namedRoutes == map[] && s.extraAssetsMapping == map[]
  {
    Server(ctx, [], isDebug, map[], map[])
  }

  /**
   * `Handle(method, path, handle)`: the router gains exactly one registration, at the end, and
   * nothing else about the server changes.
   */
  function Handle(s: Server, verb: string, path: string, handler: string): (r: Server)
    ensures |r.routes| == |s.routes| + 1 && r.routes[..|s.routes|] == s.routes
    ensures r.routes[|s.routes|] == Route(verb, path, handler)
    ensures r.(routes := s.routes) == s
  {
    s.(routes := s.routes + [Route(verb, path, handler)])
  }

  /** `Get(path, handle)`: registers exactly what `Handle("GET", path, handle)` registers. */
  function Get(s: Server, path: string, handler: string): (r: Server)
    ensures |r.routes| == |s.routes| + 1 && r.routes[..|s.routes|] == s.routes
    ensures r.routes[|s.routes|].verb == "GET"
    ensures r.routes[|s.routes|].path == path && r.routes[|s.routes|].handler == handler
    ensures r.(routes := s.routes) == s
  {
    Handle(s, "GET", path, handler)
  }

  /**
   * `newContextWithParams`: a child of `ctx` whose params key resolves to exactly `params`;
   * every other key resolves as in `ctx`.
   */
  function NewContextWithParams(ctx: Ctx, params: seq<Param>): (child: Ctx)
    ensures Lookup(child, HrParamsKey) == Some(ParamsValue(params))
    ensures forall key :: key != HrParamsKey ==> Lookup(child, key) == Lookup(ctx, key)
    ensures Extends(child, ctx)
  {
    WithValue(ctx, HrParamsKey, ParamsValue(params))
  }

  /**
   * The context `hrAdapt` hands the handler: the server's base context itself when the match
   * produced no parameters, otherwise a child binding exactly those parameters.
   */
  function HrAdapt(s: Server, params: seq<Param>): (ctx: Ctx)
    ensures |params| == 0 ==> ctx == s.context
    ensures |params| > 0 ==> Lookup(ctx, HrParamsKey) == Some(ParamsValue(params))
    ensures forall key :: key != HrParamsKey ==> Lookup(ctx, key) == Lookup(s.context, key)
    ensures Extends(ctx, s.context)
  {
    if |params| > 0 then NewContextWithParams(s.context, params) else s.context
  }

  /**
   * `Params(ctx, key)`: the value of path parameter `key` from the nearest params binding, or ""
   * when the context carries none, when the nearest binding of the reserved key holds something
   * other than parameters, or when no parameter has that key.
   */
  function Params(ctx: Ctx, key: string): (v: string)
    ensures v != "" ==> exists ps: seq<Param>, i :: Lookup(ctx, HrParamsKey) == Some(ParamsValue(ps))
                                               && FirstWithKey(ps, key, i) && ps[i].value == v
  {
    match Lookup(ctx, HrParamsKey)
    case Some(ParamsValue(params)) =>
      if HasKey(params, key) then
        FirstWithKeyExists(params, key);
        ByName(params, key)
      else ByName(params, key)
    case _ => ""
  }

  /**
   * `Params` never faults and degrades to "": it is `ByName` on the nearest binding of the
   * reserved key when that binding holds parameters, and "" otherwise; a non-empty answer comes
   * from the first parameter carrying `key` in that binding.
   */
  lemma ParamsFound(ctx: Ctx, key: string)
    ensures Lookup(ctx, HrParamsKey).None? ==> Params(ctx, key) == ""
    ensures Lookup(ctx, HrParamsKey).Some? && !Lookup(ctx, HrParamsKey).value.ParamsValue? ==> Params(ctx, key) == ""
    ensures Params(ctx, key) != "" ==>
      && Lookup(ctx, HrParamsKey).Some? && Lookup(ctx, HrParamsKey).value.ParamsValue?
      && exists i :: FirstWithKey(Lookup(ctx, HrParamsKey).value.params, key, i)
                     && Lookup(ctx, HrParamsKey).value.params[i].value == Params(ctx, key)
    ensures forall ps: seq<Param>, i :: Lookup(ctx, HrParamsKey) == Some(ParamsValue(ps)) && FirstWithKey(ps, key, i) ==>
      Params(ctx, key) == ps[i].value
    ensures forall ps: seq<Param> :: Lookup(ctx, HrParamsKey) == Some(ParamsValue(ps)) && !HasKey(ps, key) ==>
      Params(ctx, key) == ""
  {
    match Lookup(ctx, HrParamsKey)
    case Some(ParamsValue(params)) =>
      if HasKey(params, key) {
        FirstWithKeyExists(params, key);
      }
    case _ =>
  }

  /**
   * A handler reached through `hrAdapt` reads back the parameters of its own match: with
   * parameters, `Params` answers as `ByName` on them; without, as on the base context.
   */
  lemma ParamsAfterHrAdapt(s: Server, params: seq<Param>, key: string)
    ensures |params| > 0 ==> Params(HrAdapt(s, params), key) == ByName(params, key)
    ensures |params| == 0 ==> Params(HrAdapt(s, params), key) == Params(s.context, key)
  {
  }
}

=== FILE: strings.dfy ===
/**
 * The parts of Go's `strings` and `fmt` packages the reverse router relies on:
 * `strings.Split` and `strings.Join` around a one-character separator, and `fmt.Sprint`
 * of a string or integer argument.
 */
module Strings {

  /** `strings.Split(s, sep)`: the pieces between separators; always at least one piece. */
  function Split(s: string, sep: char): (parts: seq<string>)
    ensures |parts| >= 1
    ensures forall i :: 0 <= i < |parts| ==> sep !in parts[i]
    decreases |s|
  {
    if |s| == 0 then [""]
    else
      var rest := Split(s[1..], sep);
      if s[0] == sep then [""] + rest
      else [[s[0]] + rest[0]] + rest[1..]
  }

  /** `strings.Join(parts, sep)`: the pieces with one separator between neighbours. */
  function Join(parts: seq<string>, sep: char): string
  {
    if |parts| == 0 then ""
    else if |parts| == 1 then parts[0]
    else parts[0] + [sep] + Join(parts[1..], sep)
  }

  /** Prepending a character to the first piece prepends it to the joined string. */
  lemma JoinConsFirst(c: char, parts: seq<string>, sep: char)
    requires |parts| >= 1
    ensures Join([[c] + parts[0]] + parts[1..], sep) == [c] + Join(parts, sep)
  {
    var ps := [[c] + parts[0]] + parts[1..];
    assert ps[1..] == parts[1..];
  }

  /** Joining the pieces of a split gives back the original string. */
  lemma {:induction false} JoinSplit(s: string, sep: char)
    ensures Join(Split(s, sep), sep) == s
    decreases |s|
  {
    if |s| > 0 {
      var rest := Split(s[1..], sep);
      JoinSplit(s[1..], sep);
      if s[0] == sep {
        assert ([""] + rest)[1..] == rest;
      } else {
        JoinConsFirst(s[0], rest, sep);
      }
      assert s == [s[0]] + s[1..];
    }
  }

  /** A piece free of separators splits to itself, and is split off whole in front of a separator. */
  lemma {:induction false} SplitPiece(p: string, t: string, sep: char)
    requires sep !in p
    ensures Split(p, sep) == [p]
    ensures Split(p + [sep] + t, sep) == [p] + Split(t, sep)
    decreases |p|
  {
    if |p| == 0 {
      assert p + [sep] + t == [sep] + t;
      assert ([sep] + t)[1..] == t;
    } else {
      SplitPiece(p[1..], t, sep);
      assert (p + [sep] + t)[1..] == p[1..] + [sep] + t;
      assert [p[0]] + p[1..] == p;
    }
  }

  /** Splitting a join of separator-free pieces gives back the pieces. */
  lemma {:induction false} SplitJoin(parts: seq<string>, sep: char)
    requires |parts| >= 1
    requires forall i :: 0 <= i < |parts| ==> sep !in parts[i]
    ensures Split(Join(parts, sep), sep) == parts
    decreases |parts|
  {
    if |parts| == 1 {
      SplitPiece(parts[0], "", sep);
    } else {
      SplitJoin(parts[1..], sep);
      SplitPiece(parts[0], Join(parts[1..], sep), sep);
      assert [parts[0]] + parts[1..] == parts;
    }
  }

  /** An argument of `fmt.Sprint` as the reverse router receives it. */
  datatype Arg = StrArg(s: string) | IntArg(i: int)

  /** `fmt.Sprint(arg)`: a string as itself, an integer in decimal with a leading `-` when negative. */
  function Sprint(arg: Arg): string
  {
    match arg
    case StrArg(s) => s
    case IntArg(i) => if i < 0 then "-" + NatToDecimal(-i) else NatToDecimal(i)
  }

  /** The decimal digits of `n`, most significant first, without leading zeros. */
  function NatToDecimal(n: nat): (s: string)
    ensures |s| >= 1
    ensures forall i :: 0 <= i < |s| ==> '0' <= s[i] <= '9'
    decreases n
  {
    if n < 10 then [Digit(n)] else NatToDecimal(n / 10) + [Digit(n % 10)]
  }

  /** The character of decimal digit `d`. */
  function Digit(d: nat): (c: char)
    requires d < 10
    ensures '0' <= c <= '9' && c as int - '0' as int == d
  {
    ('0' as int + d) as char
  }

  /** The number a string of decimal digits denotes. */
  function DecimalValue(s: string): int
  {
    if |s| == 0 then 0 else DecimalValue(s[..|s| - 1]) * 10 + (s[|s| - 1] as int - '0' as int)
  }

  /** Reading back the decimal form of a natural number gives the number. */
  lemma {:induction false} DecimalRoundTrip(n: nat)
    ensures DecimalValue(NatToDecimal(n)) == n
    decreases n
  {
    if n >= 10 {
      DecimalRoundTrip(n / 10);
      var s := NatToDecimal(n);
      assert s[..|s| - 1] == NatToDecimal(n / 10);
      assert s[|s| - 1] == Digit(n % 10);
    }
  }

  /** The inverse of `Sprint` on integer arguments. */
  function ParseInt(s: string): int
  {
    if |s| > 0 && s[0] == '-' then -DecimalValue(s[1..]) else DecimalValue(s)
  }

  /**
   * The text `fmt.Sprint` gives an integer reads back as that integer, and never contains
   * the path separator.
   */
  lemma SprintIntRoundTrip(i: int)
    ensures ParseInt(Sprint(IntArg(i))) == i
    ensures '/' !in Sprint(IntArg(i))
  {
    if i < 0 {
      DecimalRoundTrip(-i);
      assert ("-" + NatToDecimal(-i))[1..] == NatToDecimal(-i);
    } else {
      DecimalRoundTrip(i);
    }
  }
}

=== FILE: wrappers.dfy ===
/** Optional values shared by every module of the model. */
module Wrappers {

  /** A value that may be absent: Go's `nil` interface, a missing map key, a failed lookup. */
  datatype Option<+T> = None | Some(value: T)
}
